=== FILE: README.md ===
# Desk lighting over CAN — a Dafny model

The firmware drives warm/cold-white LED strips from rotary-encoder control panels. A control
panel turns encoder turns and button presses into CAN frames. Light drivers decode those frames
into brightness and colour-temperature settings. Each LED strip fades between off and on in
quantised steps. The panel's feedback bar shows the current level as a fading animation.

This project models the following pieces as pure functions over immutable datatypes:

- **CAN identifiers.** `base + driver * 0x10 + strip * 0x05`, in `CanIds`.
- **The panel's frame encoder.** In `CanSender`.
- **The stream-buffer hand-offs between interrupt and task context.** In `Stream` and
  `CanInterface`. The stream is a FIFO of tokens: a frame header is one token, and each payload
  byte is one token.
- **The light driver's dispatcher.** In `MessageProcessor` and `RxPipeline`. It frames and
  decodes messages, including the `uint8_t` identifier arithmetic.
- **Start-up of both boards.** Address bits and acceptance filters, in `LightDriverApp` and
  `ControlPanelApp`.
- **The LED strip engine.** In `LedStrip`:
  - the power state machine;
  - 5 % brightness and 100 K colour steps;
  - the warm/cold level mapping;
  - the quantised fade.
- **The panel's input logic.** In `PanelStateMachine`:
  - levels clamped to the 12-step scale;
  - the command and feedback request per event.
- **The encoder reading.** In `Encoder`, with the 16-bit wrap written out.
- **The feedback-bar animations.** In `LedAnimationBase`, `FadingAnimation` and
  `ShowStatusAnimation`.
- **End-to-end lemmas.** In `PanelToDriver`. These follow a panel command through the sender,
  the TX task, the receive interrupt and the dispatcher.

Machine-integer behaviour is written out explicitly, in `MachineInt`:

- `U8`/`U16`/`U32` wrap-around;
- the `int16_t` narrowing `I16`;
- C++ truncating division `TruncDiv`.

## Model

| member | source | states |
|---|---|---|
| `CanIds.BaseValue` | firmware/common-stuff/can/can_ids.hpp:9-16 | every command kind has an underlying value in 0x10..0x14 |
| `CanIds.IdBaseOf` | firmware/common-stuff/can/can_ids.hpp:9-16 | a number names a command kind exactly when it lies in 0x10..0x14, and then that kind's value is the number |
| `CanIds.BaseValuesConsecutive` | firmware/common-stuff/can/can_ids.hpp:9-16 | the kinds are the consecutive values 0x10..0x14 in declaration order, and reading a kind's value back gives the kind |
| `CanIds.Decompose` | firmware/common-stuff/can/can_ids.hpp:6-7 | any (kind, driver, strip) split of an identifier recomposes to that identifier, with strip 0 or 1 |
| `CanIds.DecomposeEncode` | firmware/common-stuff/can/can_ids.hpp:6-16 | round trip: an identifier built for strip 0 or 1 splits back into its kind, driver and strip |
| `CanIds.EncodeInjective` | firmware/common-stuff/can/can_ids.hpp:6-16 | two (kind, driver, strip) triples with strip 0 or 1 never share an identifier |
| `CanIds.EncodeIsStandardId` | firmware/common-stuff/can/can_ids.hpp:6-16 | for drivers 0..7 and strips 0..1 every identifier fits the 11-bit standard identifier space |
| `CanIds.StripOneBetweenDrivers` | firmware/common-stuff/can/can_ids.hpp:6-16 | a driver's strip-1 identifiers lie strictly above its strip-0 identifiers and strictly below the next driver's strip-0 identifiers |
| `CanIds.WorkedExamples` | firmware/common-stuff/can/can_ids.hpp:19-28 | the documented examples 0x21, 0x37 and 0x11 come out of the identifier formula |
| `CanSender.LittleEndianBytes` | firmware/control-panel_firmware/src/CanMesssageSender.hpp:46-50 | a uint16_t is laid out as two bytes, low byte first, that recombine to the value |
| `CanSender.DataLengthOf` | firmware/control-panel_firmware/src/CanMesssageSender.hpp:40-52 | the payload length is at most 2, and non-zero exactly for Brightness and ColorTemperature |
| `CanSender.SendCanMessage` | firmware/control-panel_firmware/src/CanMesssageSender.hpp:32-57 | the frame written is a header carrying the identifier formula and a DataLength equal to the payload byte count, followed by `payload & 0xFF` for Brightness, the two little-endian bytes for ColorTemperature, and nothing for the other kinds |
| `CanSender.SentByteCount` | firmware/control-panel_firmware/src/CanMesssageSender.hpp:54-56 | the byte count sent is exactly the header size plus DataLength |
| `Stream.ReceiveHeader` | firmware/light-driver_firmware/src/MessageProcessor.hpp:31-39 | a header read succeeds exactly when a header is at the front, consuming just that header; otherwise nothing is consumed |
| `Stream.ReceivePayload` | firmware/light-driver_firmware/src/MessageProcessor.hpp:44-45 | a payload read returns at most the requested count, the bytes returned plus what is left is the queue read from, and a short read stops only at the end of the queue or at the next header |
| `Stream.ReceivePayloadExact` | firmware/light-driver_firmware/src/MessageProcessor.hpp:44-47 | a payload read of exactly the bytes present before the next header returns those bytes and leaves the rest |
| `Stream.DataBytesOf` | firmware/common-stuff/can/CanInterface.hpp:72-74 | the bytes after a header are recovered exactly when no further header is among them, and re-encoding them gives the tokens back |
| `CanInterface.ReceiveFifoMessageFromIsr` | firmware/common-stuff/can/CanInterface.hpp:25-38 | a failed HAL read enqueues nothing; a successful one enqueues the header and then exactly DataLength bytes of the receive buffer, in that order |
| `CanInterface.IsrFrameReadsBack` | firmware/common-stuff/can/CanInterface.hpp:30-34 | reading back what the interrupt enqueued yields the HAL header and exactly its payload bytes, leaving the following frames |
| `CanInterface.DispatchCanMessage` | firmware/common-stuff/can/CanInterface.hpp:60-75 | a zero-length receive submits nothing; a submitted frame starts with its header, its DataLength plus the header size equals the received length, and its payload is exactly the bytes after the header |
| `CanInterface.DispatchCanMessageClassic` | firmware/common-stuff/can/CanInterface.hpp:68-70 | for a classic frame the message is submitted if and only if DataLength plus the header size equals the received length |
| `CanInterface.TxMessageSubmitted` | firmware/common-stuff/can/CanInterface.hpp:60-75 | a header followed by its payload is submitted unchanged |
| `MessageProcessor.CombineBytes` | firmware/light-driver_firmware/src/MessageProcessor.hpp:104 | `(high << 8) \| low` keeps low as its low byte and high as its high byte |
| `MessageProcessor.ProcessCommand` | firmware/light-driver_firmware/src/MessageProcessor.hpp:93-112 | Brightness yields exactly one brightness action with `rxData[0]`, ColorTemperature exactly one action with the little-endian `rxData[1..0]`, and every other value, whether another kind or a byte outside 0x10..0x14, yields nothing |
| `MessageProcessor.DecodeFrame` | firmware/light-driver_firmware/src/MessageProcessor.hpp:57-80 | a frame produces at most two actions |
| `MessageProcessor.DecodeEncoded` | firmware/light-driver_firmware/src/MessageProcessor.hpp:57-80 | at a driver with index 1..7, each identifier of the address range gives one of three outcomes: the command on both strips if it is global (driver 0, strip 0); the command on the addressed strip if it is for this driver; nothing for the strip-1 global identifiers 0x15..0x19 and every other driver, whatever the uint8_t wrap |
| `MessageProcessor.PayloadRoundTrip` | firmware/light-driver_firmware/src/MessageProcessor.hpp:93-112 | Brightness decodes the first payload byte and ColorTemperature the little-endian 16-bit value the sender laid out |
| `MessageProcessor.ProcessFrame` | firmware/light-driver_firmware/src/MessageProcessor.hpp:31-80 | a failed header read resets without acting; a frame is dispatched if and only if the payload read returned exactly DataLength bytes and that count is non-zero, and then it is decoded over the payload area the read overwrote |
| `MessageProcessor.Step` | firmware/light-driver_firmware/src/MessageProcessor.hpp:28-81 | a reset empties the stream, a dispatch consumes at least one token, and what is left is always a suffix of the stream |
| `MessageProcessor.EmptyFrameResets` | firmware/light-driver_firmware/src/MessageProcessor.hpp:44-53 | a frame with DataLength 0 is always discarded with a stream reset |
| `RxPipeline.IsrFrameDispatched` | firmware/light-driver_firmware/src/MessageProcessor.hpp:28-81 | a frame the interrupt enqueued is dispatched from its own payload bytes over the rest of the payload area, and the following frames stay queued |
| `RxPipeline.TornFrameRecovers` | firmware/light-driver_firmware/src/MessageProcessor.hpp:44-53 | a header whose payload came up short resets the stream, and the next well-formed frame is then decoded normally |
| `RxPipeline.ShortPayloadRead` | firmware/light-driver_firmware/src/MessageProcessor.hpp:44-45 | asking for more payload bytes than are queued returns all of them |
| `RxPipeline.IsrQueue` | firmware/common-stuff/can/CanInterface.hpp:30-34 | the stream after a sequence of interrupts is empty exactly when no frame arrived, and otherwise starts with a header |
| `RxPipeline.Run` | firmware/light-driver_firmware/src/MessageProcessor.hpp:28-81 | `n` loop iterations yield one result each; the driver index and the size of the payload area are kept, only a suffix of the stream is left, and once any iteration has reset the stream nothing is left |
| `RxPipeline.FramesDispatchedInOrder` | firmware/light-driver_firmware/src/MessageProcessor.hpp:28-81 | after one loop iteration per interrupt-delivered frame, every frame has been dispatched in arrival order, each decoded from its own payload, and the stream is empty |
| `LightDriverApp.DetermineAddressBits` | firmware/light-driver_firmware/src/Application.cxx:68-72 | the driver index is fixed to a non-zero value, so the constructor always sets up CAN, with driver 1's filters |
| `LightDriverApp.Filters` | firmware/light-driver_firmware/src/Application.cxx:95-104 | six filter identifiers, all standard 11-bit identifiers for driver indices up to 7 |
| `LightDriverApp.Construct` | firmware/light-driver_firmware/src/Application.cxx:30-37 | CAN is set up, with the driver's filter table, if and only if the driver index is not 0 |
| `LightDriverApp.StartupJoinsAsDriverOne` | firmware/light-driver_firmware/src/Application.cxx:68-72 | the board as built boots as driver 1 with filters 0x11, 0x12, 0x21, 0x22, 0x26, 0x27 |
| `LightDriverApp.FiltersMatchDecoder` | firmware/light-driver_firmware/src/Application.cxx:95-104 | an identifier of the address range passes driver i's filters if and only if driver i's dispatcher acts on it, and every such identifier is Brightness or ColorTemperature |
| `ControlPanelApp.DetermineAddressBits` | firmware/control-panel_firmware/src/Application.cxx:84-88 | the address expression as written reports the lowest set address bit: 1 whenever bit 0 is set, 2 for bit 1 without bit 0, 4 for bit 2 alone, and 0 only when no bit is set |
| `ControlPanelApp.IntendedAddress` | firmware/control-panel_firmware/src/Application.cxx:86 | the three address bits are bits 0, 1 and 2 of an index below 8 |
| `ControlPanelApp.AddressIsPriorityEncoder` | firmware/control-panel_firmware/src/Application.cxx:86 | the expression as written yields only 0, 1, 2 or 4 (the lowest set bit), and agrees with the intended address exactly when at most one bit is set |
| `ControlPanelApp.AddressExpressionCounterexample` | firmware/control-panel_firmware/src/Application.cxx:86 | with bits 0 and 1 set the panel reads address 1 where 3 is meant |
| `ControlPanelApp.Filters` | firmware/control-panel_firmware/src/Application.cxx:110-122 | panel 0's two filters are the Status identifiers of strip 0 of drivers 1 and 2; panel i's are the Status identifiers of strips 0 and 1 of driver i |
| `ControlPanelApp.FiltersAreStatusIds` | firmware/control-panel_firmware/src/Application.cxx:110-122 | panel 0 filters the Status identifiers of strip 0 of drivers 1 and 2 (0x20, 0x30); panel i filters the Status identifiers of both strips of driver i |
| `ControlPanelApp.PeriodicTestFrame` | firmware/control-panel_firmware/src/Application.cxx:40-57 | the frame sent every 5 s is exactly what the sender lays out for a Brightness command 0x12 to driver `index`, strip 0 |
| `ControlPanelApp.TestFrameIsBrightnessCommand` | firmware/control-panel_firmware/src/Application.cxx:40-57 | the periodic test frame is the sender's Brightness frame with payload 0x12 for driver `index`, strip 0, so driver `index` (1..7) sets strip 0 to 18 %, and from panel 0 it is a global command that every driver 1..7 applies to both strips |
| `LedStrip.SetState` | firmware/common-stuff/led/LedStrip.hpp:67-90 | the new state is taken; entering a fading state requests a fade restart; channels are switched on for On and FadingOn, off for Off, and left alone for FadingOff; nothing else changes |
| `LedStrip.ToggleState` | firmware/common-stuff/led/LedStrip.hpp:51-65 | On or FadingOn becomes FadingOff and Off or FadingOff becomes FadingOn, always requesting a fade restart, with brightness and colour temperature unchanged |
| `LedStrip.ToggleTwice` | firmware/common-stuff/led/LedStrip.hpp:51-65 | every toggle reverses the direction, so two toggles restore it |
| `LedStrip.EnabledUnlessOff` | firmware/common-stuff/led/LedStrip.hpp:134-138 | a strip is enabled exactly when it is not Off |
| `LedStrip.WarmWhiteLightLevel` | firmware/common-stuff/led/LedStrip.hpp:186-196 | the warm level is at most full scale, and is full scale exactly up to 4200 K |
| `LedStrip.ColdWhiteLightLevel` | firmware/common-stuff/led/LedStrip.hpp:199-209 | the cold level is at most full scale, and is full scale exactly from 4200 K up |
| `LedStrip.LevelMappingMonotone` | firmware/common-stuff/led/LedStrip.hpp:186-216 | as the temperature rises the warm level never rises and the cold level never falls, and one channel is always at full scale |
| `LedStrip.UpdateBrightness` | firmware/common-stuff/led/LedStrip.hpp:219-223 | each channel level is the mapped level times the brightness percentage, divided by 100 and rounded down; nothing else changes |
| `LedStrip.BrightnessUp` | firmware/common-stuff/led/LedStrip.hpp:92-98 | brightness rises by 5 below 100 and stays otherwise, and a multiple of 5 in [0, 100] stays one |
| `LedStrip.BrightnessDown` | firmware/common-stuff/led/LedStrip.hpp:100-106 | brightness falls by 5 from 5 up, wraps to 252..255 from 1..4 (uint8_t), stays at 0, and a multiple of 5 in [0, 100] stays one |
| `LedStrip.CctUp` | firmware/common-stuff/led/LedStrip.hpp:108-114 | the colour temperature rises by 100 K below 6000 K, and a multiple of 100 K in [2700, 6000] stays one |
| `LedStrip.CctDown` | firmware/common-stuff/led/LedStrip.hpp:116-122 | the colour temperature falls by 100 K above 2700 K, and a multiple of 100 K in [2700, 6000] stays one |
| `LedStrip.IncrementBrightness` | firmware/common-stuff/led/LedStrip.hpp:92-98 | brightness rises by 5 below 100 and stays at 100 or more; both channel levels then show the new brightness; nothing else changes (undone by `DecrementBrightness`, see `BrightnessStepUndone`) |
| `LedStrip.DecrementBrightness` | firmware/common-stuff/led/LedStrip.hpp:100-106 | brightness falls by 5 from 5 up, wraps to 252..255 from 1..4, and stays at 0; both channel levels then show the new brightness; nothing else changes |
| `LedStrip.IncrementCct` | firmware/common-stuff/led/LedStrip.hpp:108-114 | on the grid, the colour temperature rises by 100 K below 6000 K and stays at 6000 K; both channel levels then show the new temperature; nothing else changes |
| `LedStrip.DecrementCct` | firmware/common-stuff/led/LedStrip.hpp:116-122 | on the grid, the colour temperature falls by 100 K above 2700 K and stays at 2700 K; both channel levels then show the new temperature; nothing else changes |
| `LedStrip.BrightnessStepUndone` | firmware/common-stuff/led/LedStrip.hpp:92-106 | on a strip whose levels show its settings, a brightness step up followed by a step down restores the strip below 100 %, and a step down followed by a step up restores it from 5 % to 100 % |
| `LedStrip.CctStepUndone` | firmware/common-stuff/led/LedStrip.hpp:108-122 | on the grid, a colour-temperature step up followed by a step down restores the strip below 6000 K, and a step down followed by a step up restores it above 2700 K |
| `LedStrip.InputsStayOnGrid` | firmware/common-stuff/led/LedStrip.hpp:92-122 | any sequence of brightness, colour-temperature and toggle inputs from an on-grid strip keeps brightness a multiple of 5 in [0, 100] and colour temperature a multiple of 100 K in [2700, 6000] |
| `LedStrip.Initial` | firmware/common-stuff/led/LedStrip.hpp:164-172 | a new strip is Off with both channels off and dark, at 50 % and neutral 4200 K, with a fade restart pending; the fade statics start as an empty fade at 0 with unit step, increasing, 10 ms per step |
| `LedStrip.InitialOnGrid` | firmware/common-stuff/led/LedStrip.hpp:164-172 | the constructed strip is on the brightness and colour-temperature grid and is not enabled |
| `LedStrip.NarrowedDifference` | firmware/common-stuff/led/LedStrip.hpp:273-275 | for fade endpoints up to 2550 the int16_t difference and the uint16_t step count lose nothing |
| `LedStrip.DelayPerStep` | firmware/common-stuff/led/LedStrip.hpp:278-288 | zero steps give an unbounded delay; up to `possibleSteps` steps the delays add up to the 300 ms fade; beyond that the enlarged steps take `possibleSteps` ms in total, and with the `ceil` step size each step waits at least 1 ms and less than 2 ms |
| `LedStrip.Quantise` | firmware/common-stuff/led/LedStrip.hpp:277-292 | up to `possibleSteps` the step count is kept with step size 1; beyond that it is cut down to a multiple of the step size, within one step of the original, and needing at most `possibleSteps` steps; the step size is then `ceil(n / possibleSteps)`, the smallest that fits |
| `LedStrip.PrepareFade` | firmware/common-stuff/led/LedStrip.hpp:269-300 | the fade runs towards 10 times the brightness for FadingOn and towards 0 otherwise, decreasing exactly for a fade-off of non-zero brightness; the start lies a multiple of the step size from the target, within one step of the full distance, at most `possibleSteps` steps away, and away from the target exactly when the brightness is non-zero; the step size is 1 while 10 times the brightness fits in `possibleSteps` steps and `ceil(10 * brightness / possibleSteps)` beyond |
| `LedStrip.ProcessFading` | firmware/common-stuff/led/LedStrip.hpp:226-266 | outside fading nothing changes and the task period is returned; a fading strip never has a restart pending afterwards; the state changes only by finishing the fade into On or Off, returning the task period; brightness and colour temperature never change |
| `LedStrip.FadeStarts` | firmware/common-stuff/led/LedStrip.hpp:237-247 | for non-zero brightness the pending restart yields a fade in progress needing between 1 and `possibleSteps` steps |
| `LedStrip.InFlightProcess` | firmware/common-stuff/led/LedStrip.hpp:249-252 | on a fade in progress the size_t position update does not wrap, the levels are written for the advanced position, and the strip either finishes or keeps everything else |
| `LedStrip.FadeStep` | firmware/common-stuff/led/LedStrip.hpp:249-265 | each step moves one step size toward the target without passing it; the last step ends in On or Off with the task period, and any other step stays in progress, one step closer, with the per-step delay |
| `LedStrip.FadeStepLevels` | firmware/common-stuff/led/LedStrip.hpp:249-253 | levels written during a fade never exceed the steady levels, and the last step of a fade-on writes exactly them |
| `LedStrip.FadeLevelBound` | firmware/common-stuff/led/LedStrip.hpp:251-252 | `level * position / 1000` is at most `level * brightness / 100` up to position 10 times the brightness, and equal there |
| `LedStrip.FadeCompletes` | firmware/common-stuff/led/LedStrip.hpp:226-266 | a fade in progress stays in its fading state for exactly its remaining steps and then rests in On or Off with the position at the target |
| `LedStrip.ToggleFadeCompletes` | firmware/common-stuff/led/LedStrip.hpp:51-65 | toggling a strip of non-zero brightness fades it for between 1 and `possibleSteps` calls and then leaves it Off if it was heading on, On otherwise |
| `LedStrip.ZeroBrightnessFadeMissesTarget` | firmware/common-stuff/led/LedStrip.hpp:271-278 | with brightness 0 the first fade step moves the position to 1 past the target 0, so the strip keeps fading with an unbounded delay |
| `PanelStateMachine.Initial` | firmware/control-panel_firmware/src/StateMachine.hpp:70-74 | the constructed panel has its levels in range and both strips switched off |
| `PanelStateMachine.Target` | firmware/control-panel_firmware/src/StateMachine.hpp:151-157 | panel 0 addresses strip 0 of driver 1 + ledIndex; any other panel addresses strip 1 of its own driver |
| `PanelStateMachine.BrightnessPercentage` | firmware/control-panel_firmware/src/StateMachine.hpp:144-149 | the published brightness never exceeds 100, and for levels 0..12 it is 8 times the level |
| `PanelStateMachine.ColorTemperatureKelvin` | firmware/control-panel_firmware/src/StateMachine.hpp:165-168 | the published temperature never exceeds 6500 K, and levels 1..12 give 2400 + 300 * level, within 2700..6000 K |
| `PanelStateMachine.PublishedValuesDistinct` | firmware/control-panel_firmware/src/StateMachine.hpp:144-168 | distinct levels in range publish distinct values |
| `PanelStateMachine.PublishBrightness` | firmware/control-panel_firmware/src/StateMachine.hpp:144-160 | one Brightness command with the capped percentage to the panel's target, and a brightness display of the level |
| `PanelStateMachine.PublishColorTemperature` | firmware/control-panel_firmware/src/StateMachine.hpp:163-179 | one ColorTemperature command with the capped kelvin value to the panel's target, and a colour-temperature display of the level |
| `PanelStateMachine.Clamp` | firmware/control-panel_firmware/src/StateMachine.hpp:107-108 | the result lies in [lo, hi], equals x inside it and the nearer bound outside |
| `PanelStateMachine.UpdateBrightness` | firmware/control-panel_firmware/src/StateMachine.hpp:105-111 | the strip's brightness level moves by delta when that stays in [0, 12], and otherwise stops at the nearer end; the other strip and every other field are unchanged; the new level is published (undone by the opposite move, see `EncoderMoveUndone`) |
| `PanelStateMachine.UpdateColorTemperature` | firmware/control-panel_firmware/src/StateMachine.hpp:114-120 | the strip's colour-temperature level moves by delta when that stays in [1, 12], and otherwise stops at the nearer end; the other strip and every other field are unchanged; the new level is published |
| `PanelStateMachine.TogglePower` | firmware/control-panel_firmware/src/StateMachine.hpp:123-127 | only the strip's power flag flips; the panel sends a Brightness command to the strip's target carrying the stored level's percentage when the strip is now on, and 0 when it is now off (undone by a second toggle, see `ToggleTwiceRestores`) |
| `PanelStateMachine.ResetBrightnessToDefault` | firmware/control-panel_firmware/src/StateMachine.hpp:130-134 | only the strip's brightness level changes, to 9, and 72 % is sent to the strip's target |
| `PanelStateMachine.ResetColorTemperatureToDefault` | firmware/control-panel_firmware/src/StateMachine.hpp:137-141 | only the strip's colour-temperature level changes, to 6, and 4200 K is sent to the strip's target |
| `PanelStateMachine.EncoderMoveUndone` | firmware/control-panel_firmware/src/StateMachine.hpp:105-120 | a turn within the level range moves the level by exactly delta and the opposite turn restores the panel; a turn past either end stops at that end |
| `PanelStateMachine.EncoderEffect` | firmware/control-panel_firmware/src/StateMachine.hpp:85-100 | even encoders send Brightness and odd encoders ColorTemperature, to the target of strip encoderIndex / 2 |
| `PanelStateMachine.HandleEncoderDeltas` | firmware/control-panel_firmware/src/StateMachine.hpp:77-102 | one output per non-zero delta, and the outputs are those each encoder produces on its own |
| `PanelStateMachine.EncoderOutputsIndependent` | firmware/control-panel_firmware/src/StateMachine.hpp:77-102 | handling the encoders in sequence emits, in encoder order, exactly the outputs each would produce on the panel as it was before the round |
| `PanelStateMachine.ButtonCallback` | firmware/control-panel_firmware/src/StateMachine.hpp:182-208 | a short press flips only the power flag of strip `encoderIndex / 2` and sends a Brightness command to that strip's target, carrying the stored level's percentage when it is now on and 0 when it is now off; a long press on an even encoder resets only that strip's brightness level, to 9, and sends 72 % as Brightness; on an odd encoder it resets only the colour-temperature level, to 6, and sends 4200 K as ColorTemperature |
| `PanelStateMachine.ToggleTwiceRestores` | firmware/control-panel_firmware/src/StateMachine.hpp:123-127 | two short presses on one strip restore the panel, after publishing the stored level once and 0 once |
| `PanelStateMachine.LongPressResets` | firmware/control-panel_firmware/src/StateMachine.hpp:130-141 | a long press resets brightness to level 9 (72 %) on even encoders or colour temperature to level 6 (4200 K) on odd ones, and changes nothing else |
| `PanelStateMachine.HandleEvent` | firmware/control-panel_firmware/src/StateMachine.hpp:182-212 | every button event produces exactly one output and keeps the panel's address |
| `PanelStateMachine.EventKeepsRanges` | firmware/control-panel_firmware/src/StateMachine.hpp:105-120 | every event keeps brightness levels in [0, 12] and colour-temperature levels in [1, 12], and every command it emits is Brightness up to 96 % on the 8 % grid or ColorTemperature in 2700..6000 K on the 300 K grid, for one of the panel's targets |
| `PanelStateMachine.EncoderRoundKeepsRanges` | firmware/control-panel_firmware/src/StateMachine.hpp:77-102 | the same for the encoders of one round from any index on |
| `Encoder.GetEncoderDelta` | firmware/control-panel_firmware/src/encoder/Encoder.hpp:33-54 | under 4 counts the result is 0 and the reference is kept; otherwise the reference becomes the sample; below the wrap threshold the result is the difference divided by 4 toward zero, with its sign and at least one detent; in the wrap branches it is in 0..8192 |
| `Encoder.IntendedEncoderDelta` | firmware/control-panel_firmware/src/encoder/Encoder.hpp:33-54 | the corrected reading: the signed 16-bit movement, with its sign kept and its size divided by 4, through the counter boundary too |
| `Encoder.IntendedAgreesWithoutWrap` | firmware/control-panel_firmware/src/encoder/Encoder.hpp:36-50 | away from the counter boundary the corrected reading equals the code as written |
| `Encoder.WrapLosesDirection` | firmware/control-panel_firmware/src/encoder/Encoder.hpp:42-43 | turning back 16 counts from 10 to 65530 reads as 3 detents forward where 4 back is meant |
| `Encoder.WrapLosesCount` | firmware/control-panel_firmware/src/encoder/Encoder.hpp:46-47 | turning forward 16 counts from 65530 to 10 reads as 3 detents where 4 is meant |
| `Encoder.SampleEncoders` | firmware/control-panel_firmware/src/StateMachine.hpp:40-44 | one sampling round reads each present encoder with `getEncoderDelta` as written, and reports 0, keeping the reference, for the absent ones |
| `Encoder.IntendedSampleEncoders` | firmware/control-panel_firmware/src/StateMachine.hpp:40-44 | the same round with the corrected reading |
| `Encoder.SamplingAgreesWithoutWrap` | firmware/control-panel_firmware/src/StateMachine.hpp:40-44 | when no sampled counter moved by half its range or more, the round as written and the corrected round give the same counts and references |
| `Encoder.SlowTurnAccumulates` | firmware/control-panel_firmware/src/encoder/Encoder.hpp:38-39 | sub-detent movement keeps the reference, so slow turning adds up to a detent |
| `LedAnimationBase.InitialBase` | firmware/control-panel_firmware/src/led/animations/LedAnimationBase.hpp:48-49 | a new animation is not finished and has the 20 ms delay |
| `LedAnimationBase.ResetBase` | firmware/control-panel_firmware/src/led/animations/LedAnimationBase.hpp:15-19 | the reset clears the finished flag and keeps the delay |
| `LedAnimationBase.SetDelay` | firmware/control-panel_firmware/src/led/animations/LedAnimationBase.hpp:34-37 | setting the delay leaves the finished flag |
| `LedAnimationBase.AnimationIsFinished` | firmware/control-panel_firmware/src/led/animations/LedAnimationBase.hpp:42-45 | finishing leaves the delay |
| `LedAnimationBase.DelayAndFlagReadBack` | firmware/control-panel_firmware/src/led/animations/LedAnimationBase.hpp:23-45 | the delay reads back as last set, whatever happens to the flag, and the flag reads back as last set or cleared |
| `FadingAnimation.ResetFader` | firmware/control-panel_firmware/src/led/animations/FadingAnimation.hpp:47-57 | the reset clears the flag, sets the delay to the refresh time, takes the step count as the whole refresh periods in the fading time, starts the progress at one less (wrapping to the largest size_t for 0), and records each LED's difference from its target |
| `FadingAnimation.FaderStep` | firmware/control-panel_firmware/src/led/animations/FadingAnimation.hpp:12-32 | a finished fade is left alone; otherwise LEDs with zero difference are untouched and the others are written at their fade point for the current progress |
| `FadingAnimation.FaderCountsDown` | firmware/control-panel_firmware/src/led/animations/FadingAnimation.hpp:27-31 | a running fade with progress p counts down for p + 1 steps, still running before the last, and ends finished with every changing LED at the fade point of progress 0 and the others untouched |
| `FadingAnimation.FadeFinishesAfterNumberOfSteps` | firmware/control-panel_firmware/src/led/animations/FadingAnimation.hpp:18-31 | after a reset whose fading time holds at least one refresh period, so that the step count N is at least 1, the fade finishes on exactly the N-th step, with every changing LED at the fade point of progress 0 |
| `FadingAnimation.ProgressDecreases` | firmware/control-panel_firmware/src/led/animations/FadingAnimation.hpp:27-31 | each step of a running fade with progress left lowers the progress and keeps it running |
| `ShowStatusAnimation.TriggerFading` | firmware/control-panel_firmware/src/led/animations/ShowStatusAnimation.hpp:96-100 | the fade is reset and its delay adopted; the timeout is untouched |
| `ShowStatusAnimation.ResetStatus` | firmware/control-panel_firmware/src/led/animations/ShowStatusAnimation.hpp:81-86 | the reset clears the flag, records the current tick, starts the timeout and resets the fade |
| `ShowStatusAnimation.BrightnessBar` | firmware/control-panel_firmware/src/led/animations/ShowStatusAnimation.hpp:21-28 | LEDs below the clamped level are half neutral white and the rest 5 % blue |
| `ShowStatusAnimation.ColorTemperatureMarker` | firmware/control-panel_firmware/src/led/animations/ShowStatusAnimation.hpp:38-49 | every LED shows its template colour at 20 %, except the clamped position, which shows it at 80 % |
| `ShowStatusAnimation.ShowBrightness` | firmware/control-panel_firmware/src/led/animations/ShowStatusAnimation.hpp:19-31 | shows the brightness bar with a 150 ms fade, starting the timeout at the current tick |
| `ShowStatusAnimation.ShowColorTemperature` | firmware/control-panel_firmware/src/led/animations/ShowStatusAnimation.hpp:36-52 | shows the colour-temperature marker with a 150 ms fade, starting the timeout at the current tick |
| `ShowStatusAnimation.TurnOff` | firmware/control-panel_firmware/src/led/animations/ShowStatusAnimation.hpp:54-62 | every LED fades to off over 300 ms, and the timeout state is kept |
| `ShowStatusAnimation.TimedOut` | firmware/control-panel_firmware/src/led/animations/ShowStatusAnimation.hpp:67 | the timeout condition holds exactly when the ticks elapsed since the last show exceed five seconds' worth, counting across a 32-bit wrap of the tick counter |
| `ShowStatusAnimation.TimeoutTurnsOff` | firmware/control-panel_firmware/src/led/animations/ShowStatusAnimation.hpp:64-78 | a running timeout fires if and only if more than 5 s of ticks have elapsed (32-bit wrap-around); it then starts the fade to off and stops the timeout, and otherwise the timeout and targets stay as they were |
| `ShowStatusAnimation.StatusStep` | firmware/control-panel_firmware/src/led/animations/ShowStatusAnimation.hpp:64-78 | the timeout stays running exactly when it was running and has not expired, and the tick mark is kept; after the timeout handling, a finished fade sets the 20 ms idle delay and leaves the fade alone, and an unfinished one advances the fade by one step and keeps the delay |
| `ShowStatusAnimation.ShowRestartsTimeout` | firmware/control-panel_firmware/src/led/animations/ShowStatusAnimation.hpp:81-86 | a new show request restarts the timeout from its own tick |
| `PanelToDriver.PayloadBytes` | firmware/control-panel_firmware/src/CanMesssageSender.hpp:40-50 | the payload bytes of a command are what the sender writes after the header, DataLength of them |
| `PanelToDriver.CommandSubmitted` | firmware/common-stuff/can/CanInterface.hpp:60-75 | the TX task submits exactly the frame the sender wrote |
| `PanelToDriver.PayloadAreaDecodes` | firmware/light-driver_firmware/src/MessageProcessor.hpp:55-80 | a payload area that starts with a command's bytes decodes to that command at every strip it addresses |
| `PanelToDriver.CommandReachesDriver` | firmware/light-driver_firmware/src/MessageProcessor.hpp:28-112 | a command sent by a panel is submitted whole and, at a driver with index 1..7, decodes to the command on both strips if global, on its strip if addressed to this driver, and to nothing otherwise |
| `PanelToDriver.CentralPanelCommand` | firmware/control-panel_firmware/src/StateMachine.hpp:151-153 | panel 0 sends brightness level l of strip i as 8 * l to driver 1 + i, strip 0 |
| `PanelToDriver.CentralPanelDrivesLongStrips` | firmware/control-panel_firmware/src/StateMachine.hpp:144-160 | a brightness level published by panel 0 for strip i reaches driver 1 + i as 8 * level percent on strip 0 and is ignored elsewhere |
| `PanelToDriver.SidePanelCommand` | firmware/control-panel_firmware/src/StateMachine.hpp:170-176 | side panel a sends colour-temperature level l as 2400 + 300 * l to driver a, strip 1 |
| `PanelToDriver.SidePanelDrivesShortStrip` | firmware/control-panel_firmware/src/StateMachine.hpp:163-179 | a colour-temperature level published by side panel a reaches driver a as 2400 + 300 * level kelvin on strip 1 and is ignored elsewhere |

## Left out

- **RTOS and HAL.** Not modelled:
  - FreeRTOS tasks, delays, event groups, interrupt yields;
  - HAL FDCAN/SPI/timer/GPIO calls and filter registers;
  - the status LEDs, the addressable-LED SPI transfer, and the task loops of the feedback bar
    and the encoder manager.

  HAL results, counter samples, GPIO address bits and tick counts are parameters. Reason: they
  are I/O.
- **Byte layout of frames.** The `reinterpret_cast` of a header over raw bytes is not modelled.
  - A frame header is one stream token, with an identifier and a DataLength.
  - `sizeof` of the HAL header is a parameter `headerSize`.
  - `FDCAN_DLC_BYTES_1` is taken to be the byte count 1. The HAL header that defines it is not
    part of this model.
- `MessageProcessor.ProcessFrame`, `MessageProcessor.Step` and `RxPipeline.Deliverable`: the
  dispatcher is modelled only for frames whose DataLength fits the payload area of the 64-byte
  message buffer. The source does not check this (MessageProcessor.hpp:44, 90-91). A longer frame
  would overrun `messageBuffer`, which is undefined behaviour and has no model. Classic-CAN frames
  carry at most 8 bytes and always fit. They are the only kind the panel's sender produces
  (CanMesssageSender.hpp:26, 40-52).
- `Stream.ReceiveHeader`, `MessageProcessor.Step` and `RxPipeline.Run`: an empty queue is read
  as a 0-byte header read, which then resets the stream. In the source the header read waits
  with `portMAX_DELAY` (MessageProcessor.hpp:31) until a frame arrives, and at most times out.
  So the model's empty queue stands for that wait. The reset it reports then empties a stream
  that is already empty and has no other effect. `Run` with more iterations than queued frames
  therefore reports trailing `ResetStream` results where the source would still be waiting.
- **Desynchronised streams.** A header-sized read that starts on a payload byte is modelled as a
  failed read. Reason: the source would reinterpret payload bytes as a header, whose layout is
  not modelled.
- `Stream.ReceivePayload`: stops a payload read at the next frame header. The source reads a
  plain byte stream, so a payload read that comes up short there goes on to take the bytes of the
  following header as payload. The token stream cannot split a header into bytes. Take a torn
  frame followed by a complete one:
  - in the source, the first frame's payload is filled from the second header's bytes, so the
    second frame is not read from its own header and the stream can fall out of step;
  - in the model, the read comes up short, the stream is reset, and the second frame is decoded
    normally (`TornFrameRecovers`). The model is therefore more forgiving than the source here.
- **Concurrency.** The interrupt's header and payload writes are two separate calls with ignored
  results. This appears only as a payload read that may come up short (`TornFrameRecovers`).
- **Shared fade state.** The fade variables in `processFading` are function-local statics. They
  are therefore shared by both strips of a driver. The model keeps one fade per strip.
- **Floating point.** Delays are reals.
  - `calculateFactor` is exact real division followed by truncation.
  - The fade's step size is `ceil(n / possibleSteps)`, computed exactly.
  - The fade's per-step delay is the exact real quotient.
  - `possibleSteps` (`toOsTicks(300 ms)`) and the tick rate are parameters.
- **Gamma correction.** The gamma tables of the PWM outputs are not modelled. The model stops at
  the light level handed to `setLightLevel`.
- **Colours.** Colours and colour arithmetic are symbolic terms. The "difference is zero" test
  is a parameter. The colour types are not part of this model.
- **Button debounce.** Debounce is not modelled. Short and long presses are input events.
- **The light driver's strip setters.** `setGlobalBrightness` and `setColorTemperature` are not
  defined in the strip class. The dispatcher's output is therefore a list of abstract
  `SetBrightness` / `SetColorTemperature` actions.
- **Colour temperatures outside 2700..6000 K.** The level mapping requires a temperature in
  this range. Outside it, the float-to-size_t conversion of a negative or oversized value is
  undefined. Therefore:
  - `IncrementCct` and `DecrementCct` require a temperature on the 100 K grid;
  - a colour temperature arriving over CAN is not applied to a strip.
- `LedStrip.FadeCompletes`: stated for brightness of at least 1. With brightness 0 the source
  divides the fade duration by zero steps and never reaches the target;
  `ZeroBrightnessFadeMissesTarget` states that case instead.
- **Toggling mid-fade.** A toggle during a fade restarts from the fixed endpoints (0 or 10 times
  the brightness), not from the current position. This follows the code.
- **Payload length check.** The dispatcher checks the payload count only against the header's
  own DataLength. A ColorTemperature frame sent with DataLength 1 therefore reads a stale second
  byte. `ProcessFrame` models this with the payload area, which keeps earlier bytes.
- **Published brightness range.** The panel's brightness levels 0..12 publish at most 96 %, not
  100 %. This follows the code.
- **Zero-step animation fade.** A fade animation with 0 steps starts its progress at the
  largest size_t and divides by zero. The model keeps the wrapped progress value but not the
  division.
- `MessageProcessor.DecodeFrame`: its own contract only bounds the number of actions. The full
  decoding of every identifier in the address range is stated by `DecodeEncoded`.

## Findings

| source | as written | input that shows it | evidently intended | confidence | as-written member | corrected member |
|---|---|---|---|---|---|---|
| firmware/control-panel_firmware/src/encoder/Encoder.hpp:42-47 | the wrap branches replace the difference by `65535 - diff` and `65535 + diff`: the sign is lost when turning back through 0, and one count is lost in both branches | previous value 10, sample 65530 (16 counts back) gives +3; previous 65530, sample 10 (16 counts forward) gives +3 | the signed 16-bit movement (`diff - 65536` or `diff + 65536`), giving -4 and +4 | not executed | `Encoder.WrapLosesDirection` | `Encoder.IntendedEncoderDelta` |
| firmware/control-panel_firmware/src/Application.cxx:86 | `b0 ? 1 : 0 \| b1 ? 2 : 0 \| b2 ? 4 : 0` parses as `b0 ? 1 : ((0 \| b1) ? 2 : ((0 \| b2) ? 4 : 0))`, a priority encoder | bits 0 and 1 set give address 1 | the bits combined with bitwise or, giving 3 | not executed | `ControlPanelApp.AddressExpressionCounterexample` | `ControlPanelApp.IntendedAddress` |

Encoder sampling is modelled both ways. `Encoder.SampleEncoders` follows the code as written,
and `Encoder.IntendedSampleEncoders` uses the corrected reading. `Encoder.SamplingAgreesWithoutWrap`
states that they differ only when a counter crosses the wrap threshold. The
as-written expression (`ControlPanelApp.DetermineAddressBits`) and the intended one are both
kept. `ControlPanelApp.AddressIsPriorityEncoder` states when they agree.

=== FILE: can_ids.dfy ===
/** CAN identifier layout shared by control panels and light drivers (can_ids.hpp).
    An identifier is `base + driverIndex * LightDriverOffset + stripIndex * LedStripOffset`. */
module CanIds {
  import opened MachineInt
  import opened Wrappers

  const LightDriverOffset: nat := 0x10
  const LedStripOffset: nat := 0x05
  /** Largest identifier of the 11-bit standard CAN identifier space, plus one. */
  const StandardIdLimit: nat := 0x800

  /** The command kinds; each is bound to a fixed base value by `BaseValue`. */
  datatype IdBase = Status | Brightness | ColorTemperature | Reserved | Reserved2

  function BaseValue(k: IdBase): (v: byte)
    ensures 0x10 <= v <= 0x14
  {
    match k
    case Status => 0x10
    case Brightness => 0x11
    case ColorTemperature => 0x12
    case Reserved => 0x13
    case Reserved2 => 0x14
  }

  /** The enumerator whose underlying value is `v`, if any: the inverse of `BaseValue`. */
  function IdBaseOf(v: int): (r: Option<IdBase>)
    ensures r.Some? <==> 0x10 <= v <= 0x14
    ensures r.Some? ==> BaseValue(r.value) == v
  {
    if v == 0x10 then Some(Status)
    else if v == 0x11 then Some(Brightness)
    else if v == 0x12 then Some(ColorTemperature)
    else if v == 0x13 then Some(Reserved)
    else if v == 0x14 then Some(Reserved2)
    else None
  }

  /** The five bases are the consecutive values 0x10..0x14, so `BaseValue` is a bijection
      onto that range and `IdBaseOf` undoes it. */
  lemma BaseValuesConsecutive(k: IdBase)
    ensures IdBaseOf(BaseValue(k)) == Some(k)
    ensures BaseValue(k) == 0x10 + (match k
                                    case Status => 0
                                    case Brightness => 1
                                    case ColorTemperature => 2
                                    case Reserved => 3
                                    case Reserved2 => 4)
  {
  }

  /** Identifier arithmetic of the sender: base + driver * 0x10 + strip * 0x05. */
  function Encode(k: IdBase, driver: nat, strip: nat): nat
  {
    BaseValue(k) + driver * LightDriverOffset + strip * LedStripOffset
  }

  /** Boards are addressed by three address bits and own two strips. */
  predicate InAddressRange(driver: nat, strip: nat)
  {
    driver <= 7 && strip <= 1
  }

  /** Splits an identifier back into (kind, driver, strip); the partner of `Encode`. */
  function Decompose(id: nat): (r: Option<(IdBase, nat, nat)>)
    ensures r.Some? ==> Encode(r.value.0, r.value.1, r.value.2) == id
    ensures r.Some? ==> r.value.2 <= 1
  {
    if id < 0x10 then None
    else
      var driver := (id - 0x10) / LightDriverOffset;
      var rest := (id - 0x10) % LightDriverOffset;
      if rest < LedStripOffset then
        Some((IdBaseOf(0x10 + rest).value, driver, 0))
      else if rest < 2 * LedStripOffset then
        Some((IdBaseOf(0x10 + rest - LedStripOffset).value, driver, 1))
      else None
  }

  /** Round trip: every in-range identifier is recovered by `Decompose`. */
  lemma DecomposeEncode(k: IdBase, driver: nat, strip: nat)
    requires strip <= 1
    ensures Decompose(Encode(k, driver, strip)) == Some((k, driver, strip))
  {
    var id := Encode(k, driver, strip);
    var off := BaseValue(k) - 0x10 + strip * LedStripOffset;
    assert 0 <= off < LightDriverOffset;
    assert id - 0x10 == driver * LightDriverOffset + off;
    assert (id - 0x10) / LightDriverOffset == driver && (id - 0x10) % LightDriverOffset == off;
    BaseValuesConsecutive(k);
  }

  /** No two (kind, driver, strip) triples share an identifier, and every identifier of the
      address range fits in an 11-bit standard CAN identifier. */
  lemma EncodeInjective(k1: IdBase, d1: nat, s1: nat, k2: IdBase, d2: nat, s2: nat)
    requires s1 <= 1 && s2 <= 1
    requires Encode(k1, d1, s1) == Encode(k2, d2, s2)
    ensures k1 == k2 && d1 == d2 && s1 == s2
  {
    DecomposeEncode(k1, d1, s1);
    DecomposeEncode(k2, d2, s2);
  }

  lemma EncodeIsStandardId(k: IdBase, driver: nat, strip: nat)
    requires InAddressRange(driver, strip)
    ensures Encode(k, driver, strip) < StandardIdLimit
  {
  }

  /** For every driver, its strip-1 identifiers lie strictly between its own strip-0
      identifiers and the strip-0 identifiers of the next driver. */
  lemma StripOneBetweenDrivers(k: IdBase, j: IdBase, driver: nat)
    ensures Encode(j, driver, 0) < Encode(k, driver, 1) < Encode(j, driver + 1, 0)
  {
  }

  /** The worked examples that accompany the identifier table. */
  lemma WorkedExamples()
    ensures Encode(Brightness, 1, 0) == 0x21
    ensures Encode(ColorTemperature, 2, 1) == 0x37
    ensures Encode(Brightness, 0, 0) == 0x11
  {
  }
}

=== FILE: can_interface.dfy ===
/** The bus interface (CanInterface.hpp): the receive interrupt copies a frame into the RX
    stream, and the TX task hands well-formed frames from the TX stream to the hardware. */
module CanInterface {
  import opened MachineInt
  import opened Wrappers
  import opened Stream

  /** Size of the receive buffer the HAL copies the payload into. */
  const RxBufferSize: nat := 64
  /** Largest payload of a classic CAN frame. */
  const MaxClassicDataLength: nat := 8

  /** What a successful `HAL_FDCAN_GetRxMessage` delivers: the header and the receive buffer. */
  datatype RxMessage = RxMessage(header: Header, buffer: seq<byte>)

  predicate WellFormedRx(m: RxMessage)
  {
    |m.buffer| == RxBufferSize && m.header.dataLength <= RxBufferSize
  }

  /** The receive interrupt: `hal` is the HAL result (None when the HAL call fails). On success
      the header is enqueued, followed by exactly `dataLength` bytes of the receive buffer. */
  function ReceiveFifoMessageFromIsr(hal: Option<RxMessage>): (enqueued: Queue)
    requires hal.Some? ==> WellFormedRx(hal.value)
    ensures hal.None? ==> enqueued == []
    ensures hal.Some? ==> |enqueued| == 1 + hal.value.header.dataLength
    ensures hal.Some? ==> enqueued[0] == HeaderToken(hal.value.header)
    ensures hal.Some? ==> forall i :: 1 <= i < |enqueued| ==> enqueued[i] == DataByte(hal.value.buffer[i - 1])
  {
    match hal
    case None => []
    case Some(m) => [HeaderToken(m.header)] + DataTokens(m.buffer[..m.header.dataLength])
  }

  /** Reading back what the interrupt enqueued yields the HAL header and exactly the first
      `dataLength` bytes of the receive buffer, leaving whatever followed. */
  lemma {:induction false} IsrFrameReadsBack(m: RxMessage, rest: Queue)
    requires WellFormedRx(m)
    requires rest == [] || rest[0].HeaderToken?
    ensures var (hr, q1) := ReceiveHeader(ReceiveFifoMessageFromIsr(Some(m)) + rest);
            && hr == HeaderReceived(m.header)
            && ReceivePayload(q1, m.header.dataLength) == (m.buffer[..m.header.dataLength], rest)
  {
    var bytes := m.buffer[..m.header.dataLength];
    var q := ReceiveFifoMessageFromIsr(Some(m)) + rest;
    assert q == [HeaderToken(m.header)] + (DataTokens(bytes) + rest);
    assert q[1..] == DataTokens(bytes) + rest;
    ReceivePayloadExact(bytes, rest);
  }

  /** A frame as handed to `HAL_FDCAN_AddMessageToTxFifoQ`. */
  datatype TxFrame = TxFrame(header: Header, payload: seq<byte>)

  /** One iteration of the TX task: `chunk` is what the TX stream receive returned. The frame is
      submitted only if the received byte count is `dataLength + headerSize`, and its payload is
      the bytes that follow the header. A chunk that starts inside a payload, or whose tail holds
      another header, is not submitted (the latter cannot pass the length check for a classic
      header, see `DispatchCanMessageClassic`). */
  function DispatchCanMessage(chunk: Queue, headerSize: nat): (r: Option<TxFrame>)
    ensures ByteCount(chunk, headerSize) == 0 ==> r.None?
    ensures r.Some? ==> chunk[0] == HeaderToken(r.value.header)
    ensures r.Some? ==> r.value.header.dataLength + headerSize == ByteCount(chunk, headerSize)
    ensures r.Some? ==> chunk == [HeaderToken(r.value.header)] + DataTokens(r.value.payload)
    ensures r.Some? ==> |r.value.payload| == r.value.header.dataLength
  {
    var messageLength := ByteCount(chunk, headerSize);
    if messageLength == 0 then None
    else if !chunk[0].HeaderToken? then None
    else
      var header := chunk[0].header;
      if header.dataLength + headerSize != messageLength then None
      else
        match DataBytesOf(chunk[1..])
        case None => None
        case Some(payload) =>
          assert chunk == [chunk[0]] + chunk[1..];
          CountHeadersOfData(payload);
          Some(TxFrame(header, payload))
  }

  /** For a classic CAN header (at most 8 payload bytes) and a header larger than that, the
      frame is submitted exactly when the received length equals `dataLength + headerSize`. */
  lemma DispatchCanMessageClassic(chunk: Queue, headerSize: nat)
    requires chunk != [] && chunk[0].HeaderToken?
    requires chunk[0].header.dataLength <= MaxClassicDataLength < headerSize
    ensures DispatchCanMessage(chunk, headerSize).Some?
        <==> chunk[0].header.dataLength + headerSize == ByteCount(chunk, headerSize)
  {
    assert chunk == [chunk[0]] + chunk[1..];
    assert ByteCount(chunk, headerSize) == headerSize + ByteCount(chunk[1..], headerSize);
  }

  /** A TX stream message consisting of a header and its payload is submitted unchanged. */
  lemma TxMessageSubmitted(header: Header, payload: seq<byte>, headerSize: nat)
    requires |payload| == header.dataLength
    requires headerSize > 0
    ensures DispatchCanMessage([HeaderToken(header)] + DataTokens(payload), headerSize)
         == Some(TxFrame(header, payload))
  {
    var chunk := [HeaderToken(header)] + DataTokens(payload);
    assert chunk[1..] == DataTokens(payload);
    CountHeadersOfData(payload);
    DataBytesOfDataTokens(payload);
    assert ByteCount(chunk, headerSize) == headerSize + ByteCount(chunk[1..], headerSize);
  }
}

=== FILE: can_sender.dfy ===
/** The control panel's frame encoder (CanMesssageSender.hpp): identifier arithmetic and the
    per-kind payload layout written to the TX stream. */
module CanSender {
  import opened MachineInt
  import opened Stream
  import opened CanIds

  /** The two bytes of a uint16_t in memory order on the little-endian target: the low byte
      (`payload & 0xFF`) first, then the high byte. */
  function LittleEndianBytes(payload: uint16): (bytes: seq<byte>)
    ensures |bytes| == 2
    ensures bytes[0] as int + 0x100 * (bytes[1] as int) == payload
  {
    [payload % 0x100, payload / 0x100]
  }

  /** Payload byte count per command kind. */
  function DataLengthOf(kind: IdBase): (n: nat)
    ensures n <= 2
    ensures n > 0 <==> kind == Brightness || kind == ColorTemperature
  {
    match kind
    case Brightness => 1
    case ColorTemperature => 2
    case _ => 0
  }

  /** `sendCanMessage`: the header token followed by the payload bytes, as written to the TX
      stream. */
  function SendCanMessage(kind: IdBase, driver: byte, strip: byte, payload: uint16): (sent: Queue)
    ensures |sent| >= 1 && sent[0].HeaderToken?
    ensures sent[0].header.identifier == BaseValue(kind) + driver * LightDriverOffset + strip * LedStripOffset
    ensures sent[0].header.dataLength == |sent| - 1
    ensures kind == Brightness ==> sent[1..] == [DataByte(payload % 0x100)]
    ensures kind == ColorTemperature ==> sent[1..] == [DataByte(payload % 0x100), DataByte(payload / 0x100)]
    ensures kind != Brightness && kind != ColorTemperature ==> |sent| == 1
  {
    var header := Header(Encode(kind, driver, strip), DataLengthOf(kind));
    var data :=
      if kind == Brightness then [U8(payload)]
      else if kind == ColorTemperature then LittleEndianBytes(payload)
      else [];
    [HeaderToken(header)] + DataTokens(data)
  }

  /** The byte count handed to the TX stream is the header size plus `DataLength`. */
  lemma SentByteCount(kind: IdBase, driver: byte, strip: byte, payload: uint16, headerSize: nat)
    ensures var sent := SendCanMessage(kind, driver, strip, payload);
            ByteCount(sent, headerSize) == headerSize + sent[0].header.dataLength
  {
    var sent := SendCanMessage(kind, driver, strip, payload);
    assert sent == [sent[0]] + sent[1..];
    assert CountHeaders(sent[1..]) == 0 by {
      assert forall i :: 0 <= i < |sent[1..]| ==> sent[1..][i].DataByte?;
      if |sent| == 2 {
        assert sent[1..] == [sent[1]];
      } else if |sent| == 3 {
        assert sent[1..][1..] == [sent[2]];
      }
    }
  }
}

=== FILE: control_panel_app.dfy ===
/** Control-panel start-up (control-panel Application.cxx): the panel address, the CAN
    acceptance filters and the periodic test frame sent from `run`. */
module ControlPanelApp {
  import opened MachineInt
  import opened Wrappers
  import opened Stream
  import opened CanIds
  import opened CanSender
  import opened MessageProcessor

  /** `determineAddressBits` as written:
      `b0 ? 1 : 0 | b1 ? 2 : 0 | b2 ? 4 : 0`. Since `|` binds tighter than `?:`, this parses as
      `b0 ? 1 : ((0 | b1) ? 2 : ((0 | b2) ? 4 : 0))`, a priority encoder. */
  function DetermineAddressBits(b0: bool, b1: bool, b2: bool): (index: byte)
    ensures index == 0 <==> !b0 && !b1 && !b2
    ensures index == 1 <==> b0
    ensures index == 2 <==> !b0 && b1
    ensures index == 4 <==> !b0 && !b1 && b2
  {
    if b0 then 1
    else if BoolOr(0, b1) != 0 then 2
    else if BoolOr(0, b2) != 0 then 4
    else 0
  }

  /** `x | bit` with the bool promoted to int (0 or 1). */
  function BoolOr(x: nat, bit: bool): nat
  {
    if bit then x + 1 - x % 2 else x
  }

  /** The address the expression evidently means: the three bits combined with bitwise or. */
  function IntendedAddress(b0: bool, b1: bool, b2: bool): (index: byte)
    ensures index < 8
    ensures b0 <==> index % 2 == 1
    ensures b1 <==> (index / 2) % 2 == 1
    ensures b2 <==> index / 4 == 1
  {
    (if b0 then 1 else 0) + (if b1 then 2 else 0) + (if b2 then 4 else 0)
  }

  /** The expression as written only yields 0, 1, 2 or 4: it reports the lowest set bit. */
  lemma AddressIsPriorityEncoder(b0: bool, b1: bool, b2: bool)
    ensures DetermineAddressBits(b0, b1, b2) in {0, 1, 2, 4}
    ensures DetermineAddressBits(b0, b1, b2) == (if b0 then 1 else if b1 then 2 else if b2 then 4 else 0)
    ensures DetermineAddressBits(b0, b1, b2) == IntendedAddress(b0, b1, b2)
        <==> !(b0 && b1) && !(b0 && b2) && !(b1 && b2)
  {
  }

  /** Witness: with bits 0 and 1 both set the panel reads address 1, not 3. */
  lemma AddressExpressionCounterexample()
    ensures DetermineAddressBits(true, true, false) == 1
    ensures IntendedAddress(true, true, false) == 3
  {
  }

  /** The two filter identifiers of a panel: the main panel (index 0) listens to the Status
      identifiers of strip 0 of drivers 1 and 2, any other panel to both strips of its own index. */
  function Filters(index: byte): (ids: seq<nat>)
    ensures |ids| == 2
    ensures index == 0 ==> ids == [Encode(Status, 1, 0), Encode(Status, 2, 0)]
    ensures index != 0 ==> ids == [Encode(Status, index as nat, 0), Encode(Status, index as nat, 1)]
  {
    if index == 0 then
      [BaseValue(Status) + LightDriverOffset, BaseValue(Status) + 2 * LightDriverOffset]
    else
      var offset := index * LightDriverOffset;
      [BaseValue(Status) + offset, BaseValue(Status) + offset + LedStripOffset]
  }

  /** Read as identifiers, the panel filters are Status identifiers of the expected strips. */
  lemma FiltersAreStatusIds(index: byte)
    ensures Filters(index)[0] == 0x10 + (if index == 0 then 1 else index) * 0x10
    ensures index == 0 ==> Decompose(Filters(index)[0]) == Some((Status, 1, 0))
    ensures index == 0 ==> Decompose(Filters(index)[1]) == Some((Status, 2, 0))
    ensures index != 0 ==> Decompose(Filters(index)[0]) == Some((Status, index as nat, 0))
    ensures index != 0 ==> Decompose(Filters(index)[1]) == Some((Status, index as nat, 1))
  {
    if index == 0 {
      DecomposeEncode(Status, 1, 0);
      DecomposeEncode(Status, 2, 0);
    } else {
      DecomposeEncode(Status, index, 0);
      DecomposeEncode(Status, index, 1);
    }
  }

  /** The frame `run` sends every 5 s: Brightness identifier of the panel's own index with the
      single payload byte 0x12 (the DLC constant for one byte is taken as 1). */
  function PeriodicTestFrame(index: byte): (sent: Queue)
    ensures |sent| == 2
    ensures sent == SendCanMessage(Brightness, index, 0, 0x12)
  {
    [HeaderToken(Header(BaseValue(Brightness) + index * LightDriverOffset, 1)), DataByte(0x12)]
  }

  /** The test frame is exactly what the sender produces for Brightness 0x12 to driver `index`,
      strip 0; a light driver with that index therefore sets strip 0 to 18 % (and with index 0 it
      is a global command that every driver applies to both strips). */
  lemma TestFrameIsBrightnessCommand(index: byte, ownIndex: byte, rest: seq<byte>)
    ensures PeriodicTestFrame(index) == SendCanMessage(Brightness, index, 0, 0x12)
    ensures 1 <= index <= 7 ==>
      DecodeFrame(index, PeriodicTestFrame(index)[0].header.identifier, [0x12, 0] + rest)
        == [SetBrightness(0, 0x12)]
    ensures index == 0 && 1 <= ownIndex <= 7 ==>
      DecodeFrame(ownIndex, PeriodicTestFrame(index)[0].header.identifier, [0x12, 0] + rest)
        == [SetBrightness(0, 0x12), SetBrightness(1, 0x12)]
  {
    var id := PeriodicTestFrame(index)[0].header.identifier;
    assert id == Encode(Brightness, index, 0);
    if 1 <= index <= 7 {
      DecodeEncoded(index, Brightness, index, 0, [0x12, 0] + rest);
    } else if index == 0 {
      if 1 <= ownIndex <= 7 {
        DecodeEncoded(ownIndex, Brightness, 0, 0, [0x12, 0] + rest);
      }
    }
    assert SendCanMessage(Brightness, index, 0, 0x12)[1..] == [DataByte(0x12)];
  }
}

=== FILE: encoder.dfy ===
/** The quadrature encoder reading of the control panel (Encoder.hpp): the difference between two
    samples of the 16-bit timer counter, turned into mechanical detents. */
module Encoder {
  import opened MachineInt

  /** Electrical counts per mechanical detent. */
  const CountsPerDetent: nat := 4
  /** `std::numeric_limits<uint16_t>::max()`. */
  const CounterMax: nat := 0xFFFF
  /** `std::numeric_limits<uint16_t>::max() / 2`, the wrap detection threshold. */
  const WrapThreshold: nat := CounterMax / 2

  /** `getEncoderDelta` as written: `prev` is `prevEncoderValue`, `value` the counter sample; the
      result is the detent count and the new `prevEncoderValue`. Movements below one detent are
      ignored and keep the old reference; a difference of half the counter range or more is taken
      as a wrap and replaced by `65535 - diff` or `65535 + diff`. */
  function GetEncoderDelta(prev: uint16, value: uint16): (r: (int, uint16))
    ensures Abs(value - prev) < CountsPerDetent ==> r == (0, prev)
    ensures Abs(value - prev) >= CountsPerDetent ==> r.1 == value
    ensures Abs(value - prev) >= CountsPerDetent && Abs(value - prev) < WrapThreshold ==>
              r.0 == TruncDiv(value - prev, CountsPerDetent)
              && (value > prev <==> r.0 > 0) && Abs(r.0) >= 1
    ensures Abs(value - prev) >= WrapThreshold ==> 0 <= r.0 <= 8192
  {
    var diff := value - prev;
    if diff == 0 || Abs(diff) < CountsPerDetent then (0, prev)
    else
      var adjusted :=
        if diff >= WrapThreshold then CounterMax - diff
        else if diff <= -(WrapThreshold as int) then CounterMax + diff
        else diff;
      (TruncDiv(adjusted, CountsPerDetent), value)
  }

  /** The signed shortest movement from `prev` to `value` on the 16-bit counter circle. */
  function Movement(prev: uint16, value: uint16): (m: int)
    ensures -0x8000 <= m < 0x8000
    ensures (prev + m - value) % 0x1_0000 == 0
  {
    I16(value - prev)
  }

  /** The evidently intended reading: the movement is taken modulo 2^16 as a signed value, so a
      turn through the counter's 0/65535 boundary keeps its direction and its size. */
  function IntendedEncoderDelta(prev: uint16, value: uint16): (r: (int, uint16))
    ensures var m := Movement(prev, value);
      && (Abs(m) < CountsPerDetent ==> r == (0, prev))
      && (Abs(m) >= CountsPerDetent ==>
            && r.1 == value
            && Abs(r.0) * CountsPerDetent <= Abs(m) < (Abs(r.0) + 1) * CountsPerDetent
            && (m > 0 <==> r.0 > 0) && (m < 0 <==> r.0 < 0))
  {
    var m := Movement(prev, value);
    if Abs(m) < CountsPerDetent then (0, prev)
    else (TruncDiv(m, CountsPerDetent), value)
  }

  /** Away from the boundary both readings agree. */
  lemma IntendedAgreesWithoutWrap(prev: uint16, value: uint16)
    requires Abs(value - prev) < WrapThreshold
    ensures IntendedEncoderDelta(prev, value) == GetEncoderDelta(prev, value)
  {
  }

  /** Turning back by 16 counts through 0 (from 10 to 65530) reads as 3 detents forward as
      written, and as 4 detents backward as intended. */
  lemma WrapLosesDirection()
    ensures GetEncoderDelta(10, 65530) == (3, 65530)
    ensures IntendedEncoderDelta(10, 65530) == (-4, 65530)
  {
    assert Movement(10, 65530) == -16;
  }

  /** Turning forward by 16 counts through 0 (from 65530 to 10) keeps the direction as written
      but loses a count (65535 instead of 65536): 3 detents instead of 4. */
  lemma WrapLosesCount()
    ensures GetEncoderDelta(65530, 10) == (3, 10)
    ensures IntendedEncoderDelta(65530, 10) == (4, 10)
  {
    assert Movement(65530, 10) == 16;
  }

  /** One sampling round of the panel's `taskMain` as written: every present encoder is read with
      `getEncoderDelta`, giving the detent counts for `handleEncoderDeltas` and the new reference
      values. Encoders beyond `count` are not sampled and report 0. */
  function SampleEncoders(prevs: seq<uint16>, values: seq<uint16>, count: nat): (r: (seq<int>, seq<uint16>))
    requires |prevs| == |values| == 4 && count <= 4
    ensures |r.0| == 4 && |r.1| == 4
    ensures forall i :: 0 <= i < count ==> (r.0[i], r.1[i]) == GetEncoderDelta(prevs[i], values[i])
    ensures forall i :: count <= i < 4 ==> r.0[i] == 0 && r.1[i] == prevs[i]
  {
    var deltas := seq(4, i requires 0 <= i < 4 => if i < count then GetEncoderDelta(prevs[i], values[i]).0 else 0);
    var next := seq(4, i requires 0 <= i < 4 => if i < count then GetEncoderDelta(prevs[i], values[i]).1 else prevs[i]);
    (deltas, next)
  }

  /** The same sampling round with the corrected reading. */
  function IntendedSampleEncoders(prevs: seq<uint16>, values: seq<uint16>, count: nat): (r: (seq<int>, seq<uint16>))
    requires |prevs| == |values| == 4 && count <= 4
    ensures |r.0| == 4 && |r.1| == 4
    ensures forall i :: 0 <= i < count ==> (r.0[i], r.1[i]) == IntendedEncoderDelta(prevs[i], values[i])
    ensures forall i :: count <= i < 4 ==> r.0[i] == 0 && r.1[i] == prevs[i]
  {
    var deltas := seq(4, i requires 0 <= i < 4 => if i < count then IntendedEncoderDelta(prevs[i], values[i]).0 else 0);
    var next := seq(4, i requires 0 <= i < 4 => if i < count then IntendedEncoderDelta(prevs[i], values[i]).1 else prevs[i]);
    (deltas, next)
  }

  /** A round in which no sampled counter crossed the wrap threshold reads the same either way;
      a round in which one did can differ (`WrapLosesDirection`). */
  lemma SamplingAgreesWithoutWrap(prevs: seq<uint16>, values: seq<uint16>, count: nat)
    requires |prevs| == |values| == 4 && count <= 4
    requires forall i :: 0 <= i < count ==> Abs(values[i] as int - prevs[i] as int) < WrapThreshold
    ensures SampleEncoders(prevs, values, count) == IntendedSampleEncoders(prevs, values, count)
  {
    var a := SampleEncoders(prevs, values, count);
    var b := IntendedSampleEncoders(prevs, values, count);
    forall i | 0 <= i < count
      ensures a.0[i] == b.0[i] && a.1[i] == b.1[i]
    {
      IntendedAgreesWithoutWrap(prevs[i], values[i]);
    }
    assert a.0 == b.0 && a.1 == b.1;
  }

  /** Detents are never lost by the intended reading: across a round where the counter moved by
      less than one detent the reference stays put, so slow turning accumulates until it counts. */
  lemma SlowTurnAccumulates(prev: uint16, v1: uint16, v2: uint16)
    requires Movement(prev, v1) == 2 && Movement(prev, v2) == 4
    ensures IntendedEncoderDelta(prev, v1) == (0, prev)
    ensures IntendedEncoderDelta(IntendedEncoderDelta(prev, v1).1, v2) == (1, v2)
  {
  }
}

=== FILE: end_to_end.dfy ===
/** A control-panel command followed across the bus: written to the TX stream by the sender,
    submitted by the TX task, enqueued by the receive interrupt of a light driver and decoded by
    its message processor. */
module PanelToDriver {
  import opened MachineInt
  import opened Wrappers
  import opened Stream
  import opened CanIds
  import opened CanSender
  import opened CanInterface
  import opened MessageProcessor
  import opened RxPipeline
  import opened PanelStateMachine

  /** The payload bytes the sender writes for a command. */
  function PayloadBytes(c: Command): (bytes: seq<byte>)
    ensures SendCanMessage(c.kind, c.driver, c.strip, c.payload)[1..] == DataTokens(bytes)
    ensures |bytes| == DataLengthOf(c.kind)
  {
    if c.kind == Brightness then [U8(c.payload)]
    else if c.kind == ColorTemperature then LittleEndianBytes(c.payload)
    else []
  }

  /** The action a command means for one strip. */
  function Meaning(c: Command, strip: nat): Action
    requires c.kind == Brightness || c.kind == ColorTemperature
  {
    if c.kind == Brightness then SetBrightness(strip, c.payload % 0x100)
    else SetColorTemperature(strip, c.payload)
  }

  /** The received frame: the HAL fills the 64-byte buffer with the payload first. */
  function Received(c: Command, padding: seq<byte>): RxMessage
    requires |padding| == RxBufferSize - DataLengthOf(c.kind)
  {
    RxMessage(SendCanMessage(c.kind, c.driver, c.strip, c.payload)[0].header, PayloadBytes(c) + padding)
  }

  /** The expected decoding of a command at a light driver with index `ownIndex`. */
  function Expected(c: Command, ownIndex: byte): seq<Action>
    requires c.kind == Brightness || c.kind == ColorTemperature
  {
    if c.driver == 0 && c.strip == 0 then [Meaning(c, 0), Meaning(c, 1)]
    else if c.driver == ownIndex then [Meaning(c, c.strip)]
    else []
  }

  /** What a light driver's dispatcher does with the command when its frame arrives through the
      receive interrupt at the front of its RX stream. */
  function Delivered(c: Command, proc: Processor, padding: seq<byte>, rest: Queue): DispatchResult
    requires ValidProcessor(proc)
    requires c.kind == Brightness || c.kind == ColorTemperature
    requires |padding| == RxBufferSize - DataLengthOf(c.kind)
    requires rest == [] || rest[0].HeaderToken?
  {
    assert FrontFits(proc, ReceiveFifoMessageFromIsr(Some(Received(c, padding))) + rest);
    Step(proc, ReceiveFifoMessageFromIsr(Some(Received(c, padding))) + rest).1
  }

  /** The TX task submits exactly the frame the sender wrote. */
  lemma CommandSubmitted(c: Command, headerSize: nat)
    requires headerSize > 0
    ensures var sent := SendCanMessage(c.kind, c.driver, c.strip, c.payload);
      DispatchCanMessage(sent, headerSize) == Some(TxFrame(sent[0].header, PayloadBytes(c)))
  {
    var sent := SendCanMessage(c.kind, c.driver, c.strip, c.payload);
    assert sent == [sent[0]] + sent[1..];
    TxMessageSubmitted(sent[0].header, PayloadBytes(c), headerSize);
  }

  /** Decoding a payload area that starts with the command's payload bytes yields the command's
      meaning at every addressed strip. */
  lemma PayloadAreaDecodes(c: Command, ownIndex: byte, data: seq<byte>)
    requires c.kind == Brightness || c.kind == ColorTemperature
    requires InAddressRange(c.driver, c.strip) && 1 <= ownIndex <= 7
    requires |data| >= 2 && data[..DataLengthOf(c.kind)] == PayloadBytes(c)
    ensures DecodeFrame(ownIndex, Encode(c.kind, c.driver, c.strip), data) == Expected(c, ownIndex)
  {
    var bytes := PayloadBytes(c);
    assert data[0] == bytes[0];
    if c.kind == ColorTemperature {
      assert data[1] == bytes[1];
    }
    DecodeEncoded(ownIndex, c.kind, c.driver, c.strip, data);
  }

  /** A Brightness or ColorTemperature command for an address in range is submitted whole by the
      TX task and, once received by a light driver with index 1..7, is decoded to: the command on
      both strips if it is global (driver 0, strip 0), the command on the addressed strip if the
      driver is this one, and nothing otherwise. Brightness arrives as its low byte, colour
      temperature as the full 16-bit value. */
  lemma CommandReachesDriver(c: Command, proc: Processor, headerSize: nat, padding: seq<byte>, rest: Queue)
    requires c.kind == Brightness || c.kind == ColorTemperature
    requires InAddressRange(c.driver, c.strip)
    requires ValidProcessor(proc) && 1 <= proc.ownIndex <= 7
    requires headerSize > 0
    requires |padding| == RxBufferSize - DataLengthOf(c.kind)
    requires rest == [] || rest[0].HeaderToken?
    ensures var sent := SendCanMessage(c.kind, c.driver, c.strip, c.payload);
      DispatchCanMessage(sent, headerSize) == Some(TxFrame(sent[0].header, PayloadBytes(c)))
    ensures Delivered(c, proc, padding, rest) == Dispatched(Expected(c, proc.ownIndex))
  {
    CommandSubmitted(c, headerSize);
    var m := Received(c, padding);
    var n := m.header.dataLength;
    assert m.buffer[..n] == PayloadBytes(c);
    IsrFrameDispatched(proc, m, rest);
    var data := m.buffer[..n] + proc.rxData[n..];
    assert data[..n] == PayloadBytes(c);
    PayloadAreaDecodes(c, proc.ownIndex, data);
  }

  lemma CentralPanelCommand(level: byte, l: nat)
    requires level <= MaximumLevel && l < NumberOfLedStrips
    ensures PublishBrightness(0, level, l).command == Command(Brightness, 1 + l, 0, level * 8)
  {
  }

  /** The central panel (address 0) drives strip 0 of drivers 1 and 2: a brightness level in
      range published for strip `l` reaches driver `1 + l` as `level * 8` percent on its strip 0
      and is ignored by every other driver. */
  lemma CentralPanelDrivesLongStrips(level: byte, l: nat, proc: Processor, headerSize: nat, padding: seq<byte>, rest: Queue)
    requires level <= MaximumLevel && l < NumberOfLedStrips
    requires ValidProcessor(proc) && 1 <= proc.ownIndex <= 7
    requires headerSize > 0 && |padding| == RxBufferSize - 1
    requires rest == [] || rest[0].HeaderToken?
    ensures Delivered(PublishBrightness(0, level, l).command, proc, padding, rest)
      == Dispatched(if proc.ownIndex == 1 + l then [SetBrightness(0, level * 8)] else [])
  {
    var c := PublishBrightness(0, level, l).command;
    CentralPanelCommand(level, l);
    CommandReachesDriver(c, proc, headerSize, padding, rest);
    assert Expected(c, proc.ownIndex) == (if proc.ownIndex == 1 + l then [SetBrightness(0, level * 8)] else []);
  }

  lemma SidePanelCommand(address: byte, level: byte)
    requires 1 <= address <= 7 && 1 <= level <= MaximumLevel
    ensures PublishColorTemperature(address, level, 0).command == Command(ColorTemperature, address, 1, 2400 + 300 * level)
  {
  }

  /** A side panel (address 1..7) drives strip 1 of the driver with its own address: a colour
      temperature level in range reaches that driver as `2400 + 300 * level` kelvin on strip 1 and
      is ignored by every other driver. */
  lemma SidePanelDrivesShortStrip(address: byte, level: byte, proc: Processor, headerSize: nat, padding: seq<byte>, rest: Queue)
    requires 1 <= address <= 7 && 1 <= level <= MaximumLevel
    requires ValidProcessor(proc) && 1 <= proc.ownIndex <= 7
    requires headerSize > 0 && |padding| == RxBufferSize - 2
    requires rest == [] || rest[0].HeaderToken?
    ensures Delivered(PublishColorTemperature(address, level, 0).command, proc, padding, rest)
      == Dispatched(if proc.ownIndex == address then [SetColorTemperature(1, 2400 + 300 * level)] else [])
  {
    var c := PublishColorTemperature(address, level, 0).command;
    SidePanelCommand(address, level);
    CommandReachesDriver(c, proc, headerSize, padding, rest);
    assert Expected(c, proc.ownIndex) == (if proc.ownIndex == address then [SetColorTemperature(1, 2400 + 300 * level)] else []);
  }
}

=== FILE: fading_animation.dfy ===
/** The cross-fade of the feedback bar (FadingAnimation.hpp): after a reset it moves every LED
    from its current colour to the target colour in `numberOfSteps` steps, counting
    `fadeProgress` down to 0. */
module FadingAnimation {
  import opened LedData
  import opened LedAnimationBase

  /** Colours are symbolic: the colour constants, the colour-template entries, a colour scaled by
      a factor, and the value `target + (progress / steps) * diff` a fade step writes. The colour
      arithmetic itself is not part of this model. */
  datatype Color =
    | NeutralWhite
    | Blue
    | ColorOff
    | TemplateColor(index: nat)
    | Scaled(factor: real, base: Color)
    | FadePoint(target: Color, progress: nat, steps: nat, diff: ColorDiff)

  /** `ledData[i] - targetLedData[i]`. */
  datatype ColorDiff = Difference(from: Color, to: Color)

  /** The fade state; `ledData` is the LED buffer the fade writes (shared with its owner). */
  datatype Fader = Fader(
    base: AnimationBase,
    ledData: seq<Color>,
    targets: seq<Color>,
    diffs: seq<ColorDiff>,
    numberOfSteps: nat,
    fadeProgress: nat,
    fadingTimeMs: real)

  predicate ValidFader(f: Fader)
  {
    |f.ledData| == NumberOfFeedbackLeds && |f.targets| == NumberOfFeedbackLeds
    && |f.diffs| == NumberOfFeedbackLeds && f.fadingTimeMs >= 0.0
  }

  /** The largest 32-bit size_t. */
  const SizeMax: nat := 0xFFFF_FFFF

  /** `RefreshTime` = 2 s / configTICK_RATE_HZ, in milliseconds. */
  function RefreshTime(tickRate: nat): real
    requires tickRate >= 1
  {
    2000.0 / tickRate as real
  }

  /** `resetAnimation` of a fade: clears the finished flag, sets the delay to `RefreshTime`, takes
      `numberOfSteps` as the whole number of refresh periods in the fading time, starts
      `fadeProgress` at `numberOfSteps - 1` (in size_t arithmetic, so 0 steps wrap to the largest
      size_t), and records the difference of
      every LED from its target. */
  function ResetFader(f: Fader, tickRate: nat): (r: Fader)
    requires ValidFader(f) && tickRate >= 1
    ensures ValidFader(r)
    ensures !IsAnimationFinished(r.base) && GetDelay(r.base) == RefreshTime(tickRate)
    ensures r.numberOfSteps as real <= f.fadingTimeMs / RefreshTime(tickRate) < r.numberOfSteps as real + 1.0
    ensures r.numberOfSteps >= 1 ==> r.fadeProgress == r.numberOfSteps - 1
    ensures r.numberOfSteps == 0 ==> r.fadeProgress == SizeMax
    ensures forall i :: 0 <= i < NumberOfFeedbackLeds ==> r.diffs[i] == Difference(f.ledData[i], f.targets[i])
    ensures r.ledData == f.ledData && r.targets == f.targets && r.fadingTimeMs == f.fadingTimeMs
  {
    var n := (f.fadingTimeMs / RefreshTime(tickRate)).Floor;
    f.(base := SetDelay(ResetBase(f.base), RefreshTime(tickRate)),
       numberOfSteps := n,
       fadeProgress := if n == 0 then SizeMax else n - 1,
       diffs := seq(NumberOfFeedbackLeds, i requires 0 <= i < NumberOfFeedbackLeds => Difference(f.ledData[i], f.targets[i])))
  }

  /** `doAnimationStep`: nothing once finished; otherwise every LED whose difference is not zero
      (`isZero` is the all-channels-zero test) is written at `target + (fadeProgress / N) * diff`,
      then the animation finishes if `fadeProgress` was 0 and counts down otherwise. */
  function FaderStep(f: Fader, isZero: ColorDiff -> bool): (r: Fader)
    requires ValidFader(f)
    ensures ValidFader(r)
    ensures IsAnimationFinished(f.base) ==> r == f
    ensures GetDelay(r.base) == GetDelay(f.base)
    ensures r.targets == f.targets && r.diffs == f.diffs && r.numberOfSteps == f.numberOfSteps
    ensures forall i :: 0 <= i < NumberOfFeedbackLeds && isZero(f.diffs[i]) ==> r.ledData[i] == f.ledData[i]
    ensures !IsAnimationFinished(f.base) ==>
      forall i :: 0 <= i < NumberOfFeedbackLeds && !isZero(f.diffs[i]) ==>
        r.ledData[i] == FadePoint(f.targets[i], f.fadeProgress, f.numberOfSteps, f.diffs[i])
  {
    if IsAnimationFinished(f.base) then f
    else
      var written := seq(NumberOfFeedbackLeds, i requires 0 <= i < NumberOfFeedbackLeds =>
        if isZero(f.diffs[i]) then f.ledData[i]
        else FadePoint(f.targets[i], f.fadeProgress, f.numberOfSteps, f.diffs[i]));
      var f1 := f.(ledData := written);
      if f.fadeProgress == 0 then f1.(base := AnimationIsFinished(f.base))
      else f1.(fadeProgress := f.fadeProgress - 1)
  }

  /** `k` successive steps. */
  function FaderRun(f: Fader, isZero: ColorDiff -> bool, k: nat): (r: Fader)
    requires ValidFader(f)
    ensures ValidFader(r)
    decreases k
  {
    if k == 0 then f else FaderRun(FaderStep(f, isZero), isZero, k - 1)
  }

  /** A fade that is `p + 1` steps from its end (`fadeProgress == p`, not finished): for each of
      the next `p + 1` steps the progress counts down, with the animation still running before the
      last of them; after the last step the animation is finished, every LED with a non-zero
      difference holds the fade point of progress 0, `target + 0 * diff`, and every other LED is
      untouched. That this colour equals the target rests on colour arithmetic, which is not
      part of this model. */
  lemma {:induction false} FaderCountsDown(f: Fader, isZero: ColorDiff -> bool)
    requires ValidFader(f) && !IsAnimationFinished(f.base)
    ensures forall j :: 0 <= j <= f.fadeProgress ==>
      && !IsAnimationFinished(FaderRun(f, isZero, j).base)
      && FaderRun(f, isZero, j).fadeProgress == f.fadeProgress - j
    ensures var last := FaderRun(f, isZero, f.fadeProgress + 1);
      && IsAnimationFinished(last.base)
      && last.targets == f.targets && last.diffs == f.diffs
      && (forall i :: 0 <= i < NumberOfFeedbackLeds && !isZero(f.diffs[i]) ==>
            last.ledData[i] == FadePoint(f.targets[i], 0, f.numberOfSteps, f.diffs[i]))
      && (forall i :: 0 <= i < NumberOfFeedbackLeds && isZero(f.diffs[i]) ==> last.ledData[i] == f.ledData[i])
    decreases f.fadeProgress
  {
    var next := FaderStep(f, isZero);
    if f.fadeProgress == 0 {
      assert FaderRun(f, isZero, 1) == FaderRun(next, isZero, 0);
    } else {
      FaderCountsDown(next, isZero);
      forall j | 0 <= j <= f.fadeProgress
        ensures !IsAnimationFinished(FaderRun(f, isZero, j).base)
        ensures FaderRun(f, isZero, j).fadeProgress == f.fadeProgress - j
      {
        if j > 0 {
          assert FaderRun(f, isZero, j) == FaderRun(next, isZero, j - 1);
        }
      }
      assert FaderRun(f, isZero, f.fadeProgress + 1) == FaderRun(next, isZero, next.fadeProgress + 1);
    }
  }

  /** After a reset whose fading time holds at least one refresh period, the fade finishes on
      exactly the `numberOfSteps`-th step and leaves every changing LED at the fade point of
      progress 0. */
  lemma FadeFinishesAfterNumberOfSteps(f: Fader, tickRate: nat, isZero: ColorDiff -> bool)
    requires ValidFader(f) && tickRate >= 1
    requires f.fadingTimeMs >= RefreshTime(tickRate)
    ensures var r := ResetFader(f, tickRate);
      && (forall j :: 0 <= j < r.numberOfSteps ==> !IsAnimationFinished(FaderRun(r, isZero, j).base))
      && IsAnimationFinished(FaderRun(r, isZero, r.numberOfSteps).base)
      && (forall i :: 0 <= i < NumberOfFeedbackLeds && !isZero(r.diffs[i]) ==>
            FaderRun(r, isZero, r.numberOfSteps).ledData[i] == FadePoint(f.targets[i], 0, r.numberOfSteps, r.diffs[i]))
  {
    var r := ResetFader(f, tickRate);
    assert f.fadingTimeMs / RefreshTime(tickRate) >= 1.0;
    FaderCountsDown(r, isZero);
  }

  /** The progress written by consecutive steps strictly decreases. */
  lemma ProgressDecreases(f: Fader, isZero: ColorDiff -> bool)
    requires ValidFader(f) && !IsAnimationFinished(f.base) && f.fadeProgress > 0
    ensures FaderStep(f, isZero).fadeProgress < f.fadeProgress
    ensures !IsAnimationFinished(FaderStep(f, isZero).base)
  {
  }
}

=== FILE: led_animation_base.dfy ===
/** The bookkeeping every feedback-bar animation shares (LedAnimationBase.hpp): the refresh
    delay handed to the LED task and the finished flag. */
module LedAnimationBase {

  /** Delays are in milliseconds. */
  datatype AnimationBase = AnimationBase(refreshDelay: real, finished: bool)

  const DefaultRefreshDelay: real := 20.0

  /** A freshly constructed animation. */
  function InitialBase(): (b: AnimationBase)
    ensures !IsAnimationFinished(b) && GetDelay(b) == DefaultRefreshDelay
  {
    AnimationBase(DefaultRefreshDelay, false)
  }

  /** The base part of `resetAnimation`, run before the derived reset. */
  function ResetBase(b: AnimationBase): (r: AnimationBase)
    ensures !IsAnimationFinished(r) && GetDelay(r) == GetDelay(b)
  {
    b.(finished := false)
  }

  function GetDelay(b: AnimationBase): real
  {
    b.refreshDelay
  }

  function SetDelay(b: AnimationBase, delay: real): (r: AnimationBase)
    ensures IsAnimationFinished(r) == IsAnimationFinished(b)
  {
    b.(refreshDelay := delay)
  }

  /** `animationIsFinished`. */
  function AnimationIsFinished(b: AnimationBase): (r: AnimationBase)
    ensures GetDelay(r) == GetDelay(b)
  {
    b.(finished := true)
  }

  /** `isAnimationFinished`. */
  predicate IsAnimationFinished(b: AnimationBase)
  {
    b.finished
  }

  /** `getDelay` reports the value last given to `setDelay`, whatever happened to the finished
      flag since; the flag reads back as last set or cleared. */
  lemma DelayAndFlagReadBack(b: AnimationBase, delay: real)
    ensures GetDelay(SetDelay(b, delay)) == delay
    ensures GetDelay(AnimationIsFinished(SetDelay(b, delay))) == delay
    ensures GetDelay(ResetBase(SetDelay(b, delay))) == delay
    ensures IsAnimationFinished(AnimationIsFinished(b))
    ensures !IsAnimationFinished(ResetBase(AnimationIsFinished(b)))
  {
  }
}

=== FILE: led_data.dfy ===
/** Shared constants of the control panel's feedback LED bar (LedDataTypes.hpp). */
module LedData {
  const NumberOfFeedbackLeds: nat := 12
}

=== FILE: led_strip.dfy ===
/** One warm/cold-white LED strip (LedStrip.hpp): the power state machine, brightness and
    colour-temperature stepping, the warm/cold level mapping and the quantised fade. */
module LedStrip {
  import opened MachineInt

  datatype PowerState = Off | On | FadingOff | FadingOn

  const PwmSteps: nat := 1024
  const WarmColorTemperature: int := 2700
  const ColdColorTemperature: int := 6000
  const NeutralColorTemperature: int := 4200
  const ColorStep: int := 100
  const BrightnessStep: nat := 5

  /** The fade bookkeeping (`currentBrightness`, `targetBrightness`, `stepSize`,
      `isBrightnessDecreasing`, `delayPerStep`), in tenths of a brightness percent. */
  datatype Fade = Fade(current: uint32, target: uint32, stepSize: uint32, decreasing: bool, delayPerStep: Delay)

  /** The strip: power state, configuration (brightness in percent, colour temperature in
      kelvin), the pending fade restart, the on/off state of both PWM channels, the light level
      last written to each channel, and the fade bookkeeping. */
  datatype Strip = Strip(
    state: PowerState,
    globalBrightness: byte,
    colorTemperature: int,
    resetFade: bool,
    channelsOn: bool,
    warmLevel: nat,
    coldLevel: nat,
    fade: Fade)

  /** The strip as constructed. */
  function Initial(): (s: Strip)
    ensures s.state == Off && !s.channelsOn && s.warmLevel == 0 && s.coldLevel == 0
    ensures s.globalBrightness == 50 && s.colorTemperature == NeutralColorTemperature
    ensures s.resetFade
    ensures s.fade.current == s.fade.target == 0 && s.fade.stepSize == 1 && !s.fade.decreasing
    ensures s.fade.delayPerStep == Millis(10.0)
  {
    Strip(Off, 50, NeutralColorTemperature, true, false, 0, 0, Fade(0, 0, 1, false, Millis(10.0)))
  }

  // ------------------------------------------------------------------------------------------
  // Power state machine

  /** `setState`: On and FadingOn switch both channels on, Off switches them off, FadingOff
      leaves them on so the fade-out is visible; entering a fading state requests a fade restart. */
  function SetState(s: Strip, newState: PowerState): (r: Strip)
    ensures r.state == newState
    ensures r.resetFade == (s.resetFade || newState == FadingOn || newState == FadingOff)
    ensures r.channelsOn == (if newState == FadingOff then s.channelsOn else newState != Off)
    ensures r.(state := s.state, resetFade := s.resetFade, channelsOn := s.channelsOn) == s
  {
    match newState
    case On => s.(channelsOn := true, state := On)
    case Off => s.(channelsOn := false, state := Off)
    case FadingOn => s.(channelsOn := true, resetFade := true, state := FadingOn)
    case FadingOff => s.(resetFade := true, state := FadingOff)
  }

  /** Whether the strip is on or heading towards on. */
  predicate HeadingOn(state: PowerState)
  {
    state == On || state == FadingOn
  }

  /** `toggleState`: a strip that is on or fading on starts fading off, and vice versa. */
  function ToggleState(s: Strip): (r: Strip)
    ensures r.state == (if HeadingOn(s.state) then FadingOff else FadingOn)
    ensures r.resetFade
    ensures r.globalBrightness == s.globalBrightness && r.colorTemperature == s.colorTemperature
  {
    match s.state
    case On => SetState(s, FadingOff)
    case FadingOn => SetState(s, FadingOff)
    case Off => SetState(s, FadingOn)
    case FadingOff => SetState(s, FadingOn)
  }

  /** Toggling reverses the direction every time, so toggling twice restores it. */
  lemma ToggleTwice(s: Strip)
    ensures HeadingOn(ToggleState(s).state) == !HeadingOn(s.state)
    ensures HeadingOn(ToggleState(ToggleState(s)).state) == HeadingOn(s.state)
    ensures ToggleState(ToggleState(s)).state == (if HeadingOn(s.state) then FadingOn else FadingOff)
  {
  }

  /** `isLedStripEnabled`. */
  predicate IsLedStripEnabled(s: Strip)
  {
    s.state == On || s.state == FadingOn || s.state == FadingOff
  }

  lemma EnabledUnlessOff(s: Strip)
    ensures IsLedStripEnabled(s) <==> s.state != Off
  {
  }

  // ------------------------------------------------------------------------------------------
  // Level mapping

  predicate TemperatureInRange(t: int)
  {
    WarmColorTemperature <= t <= ColdColorTemperature
  }

  /** `calculateFactor`: position of `t` between `low` and `high` as a fraction. */
  function Factor(t: int, low: int, high: int): real
    requires low < high
  {
    (t - low) as real / (high - low) as real
  }

  /** Light level of the warm channel before brightness scaling: full scale below neutral,
      otherwise `(1 - factor) * PwmSteps` truncated. */
  function WarmWhiteLightLevel(t: int): (level: nat)
    requires TemperatureInRange(t)
    ensures level <= PwmSteps
    ensures level == PwmSteps <==> t <= NeutralColorTemperature
  {
    if t < NeutralColorTemperature then PwmSteps
    else
      var x := (1.0 - Factor(t, NeutralColorTemperature, ColdColorTemperature)) * PwmSteps as real;
      assert 0.0 <= x <= PwmSteps as real;
      x.Floor
  }

  /** Light level of the cold channel before brightness scaling: `factor * PwmSteps` truncated
      below neutral, otherwise full scale. */
  function ColdWhiteLightLevel(t: int): (level: nat)
    requires TemperatureInRange(t)
    ensures level <= PwmSteps
    ensures level == PwmSteps <==> t >= NeutralColorTemperature
  {
    if t < NeutralColorTemperature then
      var x := Factor(t, WarmColorTemperature, NeutralColorTemperature) * PwmSteps as real;
      assert 0.0 <= x < PwmSteps as real;
      x.Floor
    else PwmSteps
  }

  /** The mix is monotone in colour temperature: warm never rises and cold never falls as the
      temperature increases, and at least one channel is at full scale (both exactly at neutral). */
  lemma LevelMappingMonotone(t1: int, t2: int)
    requires TemperatureInRange(t1) && TemperatureInRange(t2) && t1 <= t2
    ensures WarmWhiteLightLevel(t1) >= WarmWhiteLightLevel(t2)
    ensures ColdWhiteLightLevel(t1) <= ColdWhiteLightLevel(t2)
    ensures WarmWhiteLightLevel(t1) == PwmSteps || ColdWhiteLightLevel(t1) == PwmSteps
  {
    if t1 >= NeutralColorTemperature {
      var x1 := (1.0 - Factor(t1, NeutralColorTemperature, ColdColorTemperature)) * PwmSteps as real;
      var x2 := (1.0 - Factor(t2, NeutralColorTemperature, ColdColorTemperature)) * PwmSteps as real;
      assert x1 >= x2;
      FloorMonotone(x2, x1);
    } else if t2 < NeutralColorTemperature {
      var x1 := Factor(t1, WarmColorTemperature, NeutralColorTemperature) * PwmSteps as real;
      var x2 := Factor(t2, WarmColorTemperature, NeutralColorTemperature) * PwmSteps as real;
      assert x1 <= x2;
      FloorMonotone(x1, x2);
    }
  }

  lemma FloorMonotone(x: real, y: real)
    requires x <= y
    ensures x.Floor <= y.Floor
  {
  }

  /** `updateBrightness`: both channel levels scaled by the global brightness in percent. */
  function UpdateBrightness(s: Strip): (r: Strip)
    requires TemperatureInRange(s.colorTemperature)
    ensures r.warmLevel * 100 <= WarmWhiteLightLevel(s.colorTemperature) * s.globalBrightness < (r.warmLevel + 1) * 100
    ensures r.coldLevel * 100 <= ColdWhiteLightLevel(s.colorTemperature) * s.globalBrightness < (r.coldLevel + 1) * 100
    ensures r.(warmLevel := s.warmLevel, coldLevel := s.coldLevel) == s
  {
    s.(warmLevel := SteadyLevel(WarmWhiteLightLevel(s.colorTemperature), s.globalBrightness),
       coldLevel := SteadyLevel(ColdWhiteLightLevel(s.colorTemperature), s.globalBrightness))
  }

  /** The channel levels show the configured brightness and colour temperature: each level is
      the mapped level times the brightness in percent, divided by 100 and rounded down. */
  predicate LevelsShow(s: Strip)
  {
    var t := s.colorTemperature;
    TemperatureInRange(t)
    && s.warmLevel * 100 <= WarmWhiteLightLevel(t) * s.globalBrightness < (s.warmLevel + 1) * 100
    && s.coldLevel * 100 <= ColdWhiteLightLevel(t) * s.globalBrightness < (s.coldLevel + 1) * 100
  }

  /** `level * globalBrightness / 100` in size_t arithmetic (no wrap for these magnitudes). */
  function SteadyLevel(level: nat, brightness: byte): nat
  {
    level * brightness / 100
  }

  /** `level * currentBrightness / 1000` in size_t arithmetic. */
  function FadeLevel(level: nat, current: uint32): nat
  {
    U32(level * current) / 1000
  }

  // ------------------------------------------------------------------------------------------
  // Brightness and colour-temperature stepping

  /** The steady-state invariant of the global brightness: a multiple of 5 in [0, 100]. */
  predicate BrightnessOnGrid(b: int)
  {
    0 <= b <= 100 && b % BrightnessStep == 0
  }

  /** The steady-state invariant of the colour temperature: a multiple of 100 K in range. */
  predicate TemperatureOnGrid(t: int)
  {
    TemperatureInRange(t) && t % ColorStep == 0
  }

  /** The uint8_t brightness step of `incrementBrightness`: +5 below 100, which never wraps. */
  function BrightnessUp(b: byte): (r: byte)
    ensures r == (if b < 100 then b + BrightnessStep else b)
    ensures BrightnessOnGrid(b) ==> BrightnessOnGrid(r)
  {
    if b < 100 then U8(b + BrightnessStep) else b
  }

  /** The uint8_t brightness step of `decrementBrightness`: -5 above 0, which wraps for 1..4. */
  function BrightnessDown(b: byte): (r: byte)
    ensures b >= BrightnessStep ==> r == b - BrightnessStep
    ensures 0 < b < BrightnessStep ==> r == b + 0x100 - BrightnessStep
    ensures b == 0 ==> r == 0
    ensures BrightnessOnGrid(b) ==> BrightnessOnGrid(r)
  {
    if b > 0 then U8(b - BrightnessStep) else b
  }

  /** `incrementBrightness`: the brightness steps up, then `updateBrightness` rewrites both
      channel levels. */
  function IncrementBrightness(s: Strip): (r: Strip)
    requires TemperatureInRange(s.colorTemperature)
    ensures s.globalBrightness < 100 ==> r.globalBrightness == s.globalBrightness + BrightnessStep
    ensures s.globalBrightness >= 100 ==> r.globalBrightness == s.globalBrightness
    ensures LevelsShow(r)
    ensures r.(globalBrightness := s.globalBrightness, warmLevel := s.warmLevel, coldLevel := s.coldLevel) == s
  {
    UpdateBrightness(s.(globalBrightness := BrightnessUp(s.globalBrightness)))
  }

  /** `decrementBrightness`: the brightness steps down, then `updateBrightness`. */
  function DecrementBrightness(s: Strip): (r: Strip)
    requires TemperatureInRange(s.colorTemperature)
    ensures s.globalBrightness >= BrightnessStep ==> r.globalBrightness == s.globalBrightness - BrightnessStep
    ensures 0 < s.globalBrightness < BrightnessStep ==> r.globalBrightness == s.globalBrightness + 0x100 - BrightnessStep
    ensures s.globalBrightness == 0 ==> r.globalBrightness == 0
    ensures LevelsShow(r)
    ensures r.(globalBrightness := s.globalBrightness, warmLevel := s.warmLevel, coldLevel := s.coldLevel) == s
  {
    UpdateBrightness(s.(globalBrightness := BrightnessDown(s.globalBrightness)))
  }

  /** The colour-temperature step of `incrementCCT`: +100 K below the cold limit. */
  function CctUp(t: int): (r: int)
    ensures r == (if t < ColdColorTemperature then t + ColorStep else t)
    ensures TemperatureOnGrid(t) ==> TemperatureOnGrid(r)
  {
    if t < ColdColorTemperature then t + ColorStep else t
  }

  /** The colour-temperature step of `decrementCCT`: -100 K above the warm limit. */
  function CctDown(t: int): (r: int)
    ensures r == (if t > WarmColorTemperature then t - ColorStep else t)
    ensures TemperatureOnGrid(t) ==> TemperatureOnGrid(r)
  {
    if t > WarmColorTemperature then t - ColorStep else t
  }

  /** `incrementCCT`: the colour temperature steps up, then `updateBrightness`. */
  function IncrementCct(s: Strip): (r: Strip)
    requires TemperatureOnGrid(s.colorTemperature)
    ensures s.colorTemperature < ColdColorTemperature ==> r.colorTemperature == s.colorTemperature + ColorStep
    ensures s.colorTemperature == ColdColorTemperature ==> r.colorTemperature == s.colorTemperature
    ensures LevelsShow(r)
    ensures r.(colorTemperature := s.colorTemperature, warmLevel := s.warmLevel, coldLevel := s.coldLevel) == s
  {
    UpdateBrightness(s.(colorTemperature := CctUp(s.colorTemperature)))
  }

  /** `decrementCCT`: the colour temperature steps down, then `updateBrightness`. */
  function DecrementCct(s: Strip): (r: Strip)
    requires TemperatureOnGrid(s.colorTemperature)
    ensures s.colorTemperature > WarmColorTemperature ==> r.colorTemperature == s.colorTemperature - ColorStep
    ensures s.colorTemperature == WarmColorTemperature ==> r.colorTemperature == s.colorTemperature
    ensures LevelsShow(r)
    ensures r.(colorTemperature := s.colorTemperature, warmLevel := s.warmLevel, coldLevel := s.coldLevel) == s
  {
    UpdateBrightness(s.(colorTemperature := CctDown(s.colorTemperature)))
  }

  /** The floor bounds of `LevelsShow` pin each level down. */
  lemma LevelsShowUnique(s: Strip, r: Strip)
    requires LevelsShow(s) && LevelsShow(r)
    requires r.colorTemperature == s.colorTemperature && r.globalBrightness == s.globalBrightness
    ensures r.warmLevel == s.warmLevel && r.coldLevel == s.coldLevel
  {
  }

  /** One brightness step up and one down undo each other on a strip whose levels show its
      settings, away from the ends of the range. */
  lemma BrightnessStepUndone(s: Strip)
    requires LevelsShow(s)
    ensures s.globalBrightness < 100 ==> DecrementBrightness(IncrementBrightness(s)) == s
    ensures BrightnessStep <= s.globalBrightness <= 100 ==> IncrementBrightness(DecrementBrightness(s)) == s
  {
    if s.globalBrightness < 100 {
      LevelsShowUnique(s, DecrementBrightness(IncrementBrightness(s)));
    }
    if BrightnessStep <= s.globalBrightness <= 100 {
      LevelsShowUnique(s, IncrementBrightness(DecrementBrightness(s)));
    }
  }

  /** One colour-temperature step up and one down undo each other on the grid, away from the
      ends of the range. */
  lemma CctStepUndone(s: Strip)
    requires LevelsShow(s) && TemperatureOnGrid(s.colorTemperature)
    ensures s.colorTemperature < ColdColorTemperature ==> DecrementCct(IncrementCct(s)) == s
    ensures s.colorTemperature > WarmColorTemperature ==> IncrementCct(DecrementCct(s)) == s
  {
    if s.colorTemperature < ColdColorTemperature {
      LevelsShowUnique(s, DecrementCct(IncrementCct(s)));
    }
    if s.colorTemperature > WarmColorTemperature {
      LevelsShowUnique(s, IncrementCct(DecrementCct(s)));
    }
  }

  /** The local inputs of a strip. */
  datatype Input = IncBrightness | DecBrightness | IncCct | DecCct | Toggle

  predicate OnGrid(s: Strip)
  {
    BrightnessOnGrid(s.globalBrightness) && TemperatureOnGrid(s.colorTemperature)
  }

  function Apply(s: Strip, input: Input): (r: Strip)
    requires TemperatureOnGrid(s.colorTemperature)
    ensures TemperatureOnGrid(r.colorTemperature)
  {
    match input
    case IncBrightness => IncrementBrightness(s)
    case DecBrightness => DecrementBrightness(s)
    case IncCct => IncrementCct(s)
    case DecCct => DecrementCct(s)
    case Toggle => ToggleState(s)
  }

  function ApplyAll(s: Strip, inputs: seq<Input>): (r: Strip)
    requires TemperatureOnGrid(s.colorTemperature)
    ensures TemperatureOnGrid(r.colorTemperature)
    decreases |inputs|
  {
    if inputs == [] then s else ApplyAll(Apply(s, inputs[0]), inputs[1..])
  }

  /** From the constructed strip (50 %, 4200 K), any sequence of inputs keeps the brightness a
      multiple of 5 in [0, 100] and the colour temperature a multiple of 100 K in [2700, 6000]. */
  lemma {:induction false} InputsStayOnGrid(s: Strip, inputs: seq<Input>)
    requires OnGrid(s)
    ensures OnGrid(ApplyAll(s, inputs))
    decreases |inputs|
  {
    if inputs != [] {
      InputsStayOnGrid(Apply(s, inputs[0]), inputs[1..]);
    }
  }

  lemma InitialOnGrid()
    ensures OnGrid(Initial())
    ensures !IsLedStripEnabled(Initial())
  {
  }

  // ------------------------------------------------------------------------------------------
  // Fading

  /** A delay returned to the task loop. `Unbounded` stands for the float division of the fade
      duration by zero steps. */
  datatype Delay = Millis(ms: real) | Unbounded

  /** One period of the 100 Hz strip task. */
  const TaskPeriod: Delay := Millis(10.0)
  const FadeDurationMs: real := 300.0

  predicate Fading(state: PowerState)
  {
    state == FadingOn || state == FadingOff
  }

  /** Distance of the fade position from its target. */
  function Dist(f: Fade): nat
  {
    Abs(f.current - f.target)
  }

  /** `prepareFade`: start and target in tenths of a percent, the step count narrowed through
      size_t, int16_t and uint16_t, the step size enlarged to `ceil(n / possibleSteps)` when there
      are more steps than task ticks in the fade duration, and the start point realigned so that it
      is a whole number of steps from the target. `possibleSteps` stands for
      `toOsTicks(FadeDuration)`; the float quotient is taken exactly. */
  function PrepareFade(s: Strip, possibleSteps: nat): (f: Fade)
    requires possibleSteps >= 1
    ensures f.stepSize >= 1
    ensures f.target == 10 * (if s.state == FadingOn then s.globalBrightness else 0)
    ensures f.decreasing <==> s.state != FadingOn && s.globalBrightness > 0
    ensures f.decreasing ==> f.current == f.target + Dist(f)
    ensures !f.decreasing ==> f.current + Dist(f) == f.target
    ensures Dist(f) % f.stepSize == 0
    ensures Dist(f) <= 10 * s.globalBrightness < Dist(f) + f.stepSize
    ensures Dist(f) / f.stepSize <= possibleSteps
    ensures s.globalBrightness > 0 <==> Dist(f) > 0
    ensures 10 * s.globalBrightness > possibleSteps ==> f.stepSize == CeilDiv(10 * s.globalBrightness, possibleSteps)
    ensures 10 * s.globalBrightness <= possibleSteps ==> f.stepSize == 1
  {
    var on := s.state == FadingOn;
    var target := 10 * (if on then s.globalBrightness else 0);
    var start := 10 * (if on then 0 else s.globalBrightness);
    var diff := NarrowedDifference(start, target);
    var n0 := U16(Abs(diff));
    assert n0 == 10 * s.globalBrightness;
    var q := Quantise(n0, possibleSteps);
    assert q.stepSize <= 2550;
    var delay := DelayPerStep(n0, possibleSteps, q.stepSize);
    var decreasing := diff > 0;
    assert decreasing <==> !on && s.globalBrightness > 0;
    var newBrightness := U16(target - (if decreasing then -(q.steps as int) else q.steps));
    assert newBrightness == target - (if decreasing then -(q.steps as int) else q.steps);
    var f := Fade(newBrightness, target, q.stepSize, decreasing, delay);
    assert Dist(f) == q.steps;
    f
  }

  /** `delayPerStep` of `prepareFade`: the fade duration over the step count, or, once the step
      size was enlarged, `1 ms * stepSize / (n / possibleSteps)`. */
  function DelayPerStep(n: nat, possibleSteps: nat, stepSize: nat): (d: Delay)
    requires possibleSteps >= 1
    ensures d.Unbounded? <==> n == 0
    ensures 0 < n <= possibleSteps ==> d.ms * n as real == FadeDurationMs
    ensures n > possibleSteps && stepSize >= 1 ==> d.ms * (n as real / stepSize as real) == possibleSteps as real
    ensures n > possibleSteps && stepSize == CeilDiv(n, possibleSteps) ==> 1.0 <= d.ms < 2.0
  {
    if n > possibleSteps then
      var ms := stepSize as real * possibleSteps as real / n as real;
      assert ms * n as real == stepSize as real * possibleSteps as real;
      DelayBounds(n, possibleSteps, stepSize, ms);
      Millis(ms)
    else if n == 0 then Unbounded
    else Millis(FadeDurationMs / n as real)
  }

  /** With `ceil(n / possibleSteps)` as step size, the enlarged per-step delay lies in [1, 2) ms. */
  lemma DelayBounds(n: nat, possibleSteps: nat, stepSize: nat, ms: real)
    requires 1 <= possibleSteps < n
    requires ms * n as real == stepSize as real * possibleSteps as real
    ensures stepSize == CeilDiv(n, possibleSteps) ==> 1.0 <= ms < 2.0
  {
    if stepSize == CeilDiv(n, possibleSteps) {
      assert n <= stepSize * possibleSteps && (stepSize - 1) * possibleSteps < n;
      StepDelayBounds(n, possibleSteps, stepSize, ms);
    }
  }

  lemma StepDelayBounds(n: nat, possibleSteps: nat, stepSize: nat, ms: real)
    requires 1 <= possibleSteps < n
    requires n <= stepSize * possibleSteps && (stepSize - 1) * possibleSteps < n
    requires ms * n as real == stepSize as real * possibleSteps as real
    ensures 1.0 <= ms < 2.0
  {
    var total := stepSize * possibleSteps;
    assert (stepSize - 1) * possibleSteps == total - possibleSteps;
    assert n <= total < 2 * n;
    var N, T := n as real, total as real;
    assert T == stepSize as real * possibleSteps as real;
    assert (ms - 1.0) * N == T - N;
    assert (2.0 - ms) * N == 2.0 * N - T;
    FactorSign(ms - 1.0, N);
    FactorSign(2.0 - ms, N);
  }

  /** A product with a positive factor has the sign of the other factor. */
  lemma FactorSign(x: real, y: real)
    requires y > 0.0
    ensures x * y >= 0.0 ==> x >= 0.0
    ensures x * y > 0.0 ==> x > 0.0
  {
  }

  /** The quantisation of `prepareFade`. */
  datatype Quantised = Quantised(stepSize: nat, steps: nat)

  /** Up to `possibleSteps` unit steps are kept as they are; beyond that the step size becomes
      `ceil(n / possibleSteps)` and the count is cut down to a multiple of it (`n -= n % stepSize`). */
  function Quantise(n: nat, possibleSteps: nat): (q: Quantised)
    requires possibleSteps >= 1
    ensures q.stepSize >= 1
    ensures q.steps % q.stepSize == 0
    ensures q.steps <= n < q.steps + q.stepSize
    ensures q.steps / q.stepSize <= possibleSteps
    ensures n <= possibleSteps ==> q == Quantised(1, n)
    ensures n > 0 ==> q.steps > 0
    ensures q.stepSize == 1 || q.stepSize <= n
    ensures n > possibleSteps ==> q.stepSize == CeilDiv(n, possibleSteps)
  {
    if n > possibleSteps then
      var step := CeilDiv(n, possibleSteps);
      var k := n / step;
      DivModUnique(n, step, k, n % step);
      DivModUnique(n - n % step, step, k, 0);
      MulCancel(k, possibleSteps, step);
      MulMonotone(1, possibleSteps, step - 1);
      assert step <= n;
      Quantised(step, n - n % step)
    else
      Quantised(1, n)
  }

  /** `int16_t brightnessDiff = CurrentBrightness - TargetBrightness` on size_t operands,
      together with the uint16_t `numberOfSteps`; for fade endpoints neither narrowing loses anything. */
  function NarrowedDifference(start: nat, target: nat): (d: int)
    requires start <= 2550 && target <= 2550
    ensures d == start - target
    ensures U16(Abs(d)) == Abs(d)
  {
    NarrowingKeepsSmallValues(start - target);
    I16(U32(start - target))
  }

  /** A small difference survives the size_t -> int16_t round trip unchanged. */
  lemma NarrowingKeepsSmallValues(v: int)
    requires -0x8000 <= v < 0x8000
    ensures I16(U32(v)) == v
  {
    if v < 0 {
      assert U32(v) == v + 0x1_0000_0000;
      assert (v + 0x1_0000_0000) % 0x1_0000 == v + 0x1_0000;
    }
  }

  /** Euclidean division is determined by its quotient-remainder equation. */
  lemma DivModUnique(x: int, m: int, q: int, r: int)
    requires m > 0 && 0 <= r < m && x == q * m + r
    ensures x / m == q && x % m == r
  {
    var q', r' := x / m, x % m;
    assert (q - q') * m == r' - r;
    if q > q' {
      MulMonotone(1, q - q', m);
    } else if q < q' {
      MulMonotone(1, q' - q, m);
    }
  }

  lemma MulMonotone(a: nat, b: nat, c: nat)
    requires a <= b
    ensures a * c <= b * c
  {
  }

  lemma MulCancel(a: int, b: int, c: int)
    requires c > 0 && a * c <= b * c
    ensures a <= b
  {
    assert (a - b) * c <= 0;
  }

  /** `processFading`: outside the fading states only the task period is returned. Otherwise a
      pending restart recomputes the fade, the position moves one step (size_t arithmetic), both
      channels are written at `level * position / 1000`, and reaching the target ends the fade in
      On or Off. */
  function ProcessFading(s: Strip, possibleSteps: nat): (r: (Strip, Delay))
    requires possibleSteps >= 1
    requires TemperatureInRange(s.colorTemperature)
    ensures !Fading(s.state) ==> r == (s, TaskPeriod)
    ensures r.0.globalBrightness == s.globalBrightness && r.0.colorTemperature == s.colorTemperature
    ensures Fading(s.state) ==> !r.0.resetFade
    ensures r.0.state != s.state ==> Fading(s.state) && r.1 == TaskPeriod
    ensures r.0.state != s.state ==> r.0.state == (if s.state == FadingOn then On else Off)
  {
    if !Fading(s.state) then (s, TaskPeriod)
    else
      var f := if s.resetFade then PrepareFade(s, possibleSteps) else s.fade;
      var position := U32(f.current + (if f.decreasing then -(f.stepSize as int) else f.stepSize));
      var t := s.colorTemperature;
      var s1 := s.(resetFade := false,
                   fade := f.(current := position),
                   warmLevel := FadeLevel(WarmWhiteLightLevel(t), position),
                   coldLevel := FadeLevel(ColdWhiteLightLevel(t), position));
      if position == f.target then
        (SetState(s1, if s.state == FadingOff then Off else On), TaskPeriod)
      else (s1, f.delayPerStep)
  }

  /** The invariant of a fade in progress: a fading state with no restart pending, the target at
      the endpoint of the direction of travel, the position on the correct side of the target, a
      whole positive number of steps away from it, and never beyond full brightness. */
  predicate InFlight(s: Strip)
  {
    var f := s.fade;
    Fading(s.state) && !s.resetFade && TemperatureInRange(s.colorTemperature)
    && f.stepSize >= 1
    && f.target == 10 * (if s.state == FadingOn then s.globalBrightness else 0)
    && f.decreasing == (s.state == FadingOff)
    && f.current <= 10 * s.globalBrightness
    && Dist(f) > 0 && Dist(f) % f.stepSize == 0
    && (if f.decreasing then f.current > f.target else f.current < f.target)
  }

  /** The strip once the pending restart has been carried out. */
  function Restarted(s: Strip, possibleSteps: nat): Strip
    requires possibleSteps >= 1
  {
    s.(resetFade := false, fade := PrepareFade(s, possibleSteps))
  }

  /** For a non-zero brightness, the first `processFading` after `toggleState` (or any
      `setState` into a fading state) starts a fade that satisfies the invariant and needs at most
      `possibleSteps` steps. */
  lemma FadeStarts(s: Strip, possibleSteps: nat)
    requires possibleSteps >= 1 && TemperatureInRange(s.colorTemperature)
    requires Fading(s.state) && s.resetFade && s.globalBrightness >= 1
    ensures InFlight(Restarted(s, possibleSteps))
    ensures ProcessFading(s, possibleSteps) == ProcessFading(Restarted(s, possibleSteps), possibleSteps)
    ensures 1 <= StepsLeft(Restarted(s, possibleSteps)) <= possibleSteps
  {
    var f := PrepareFade(s, possibleSteps);
    assert Dist(f) > 0;
    WholeSteps(Dist(f), f.stepSize);
    var r := Restarted(s, possibleSteps);
    assert r.fade == f;
    assert InFlight(r);
    assert ProcessFading(s, possibleSteps) == ProcessFading(r, possibleSteps);
  }

  /** Number of `processFading` calls still needed to reach the target. */
  function StepsLeft(s: Strip): nat
    requires s.fade.stepSize >= 1
  {
    var d: nat, step: nat := Dist(s.fade), s.fade.stepSize;
    QuotientNonNegative(d, step);
    d / step
  }

  lemma QuotientNonNegative(x: nat, d: nat)
    requires d > 0
    ensures x / d >= 0
  {
  }

  /** A positive multiple of the step size is at least one step, and taking one step away leaves a
      multiple with one step fewer. */
  lemma WholeSteps(d: nat, step: nat)
    requires step >= 1 && d > 0 && d % step == 0
    ensures d >= step && d / step >= 1
    ensures (d - step) % step == 0 && (d - step) / step == d / step - 1
  {
    var k := d / step;
    assert d == k * step;
    MulMonotone(1, k, step);
    DivModUnique(d - step, step, k - 1, 0);
  }

  /** A fade level never exceeds the steady level while the position is at most ten times the
      brightness, and equals it at that endpoint. */
  lemma FadeLevelBound(level: nat, position: nat, brightness: byte)
    requires level <= PwmSteps && position <= 10 * brightness
    ensures FadeLevel(level, position) <= SteadyLevel(level, brightness)
    ensures position == 10 * brightness ==> FadeLevel(level, position) == SteadyLevel(level, brightness)
  {
    var m := level * brightness;
    MulMonotone(position, 10 * brightness, level);
    assert level * position <= 10 * m;
    assert 10 * m <= 10 * 1024 * 255 by {
      MulMonotone(level, PwmSteps, brightness);
      MulMonotone(brightness, 255, PwmSteps);
    }
    assert U32(level * position) == level * position;
    DivMonotone(level * position, 10 * m, 1000);
    TenthsToPercent(m);
  }

  lemma DivMonotone(x: nat, y: nat, d: nat)
    requires x <= y && d > 0
    ensures x / d <= y / d
  {
    var qx, qy := x / d, y / d;
    assert qx * d <= x;
    assert y < (qy + 1) * d;
    assert (qx - (qy + 1)) * d < 0;
    NegativeFactor(qx - (qy + 1), d);
  }

  lemma NegativeFactor(a: int, c: nat)
    requires a * c < 0
    ensures a < 0
  {
    if a >= 0 {
      MulMonotone(0, a, c);
    }
  }

  lemma TenthsToPercent(m: nat)
    ensures (10 * m) / 1000 == m / 100
  {
  }

  /** One `processFading` call on a fade in progress: the position moves one step toward the target
      without passing it; on the last step the strip settles in On or Off and the task period is
      returned, otherwise the fade stays in progress with the per-step delay. */
  lemma FadeStep(s: Strip, possibleSteps: nat)
    requires possibleSteps >= 1 && InFlight(s)
    ensures var r := ProcessFading(s, possibleSteps);
      && r.0.fade.stepSize == s.fade.stepSize && r.0.fade.target == s.fade.target
      && Dist(r.0.fade) == Dist(s.fade) - s.fade.stepSize
      && (s.fade.decreasing ==> r.0.fade.current < s.fade.current)
      && (!s.fade.decreasing ==> r.0.fade.current > s.fade.current)
      && (StepsLeft(s) == 1 ==> r.0.state == (if s.state == FadingOn then On else Off) && r.1 == TaskPeriod)
      && (StepsLeft(s) > 1 ==> r.0.state == s.state && InFlight(r.0) && StepsLeft(r.0) == StepsLeft(s) - 1
                               && r.1 == s.fade.delayPerStep)
  {
    var f := s.fade;
    InFlightProcess(s, possibleSteps);
    WholeSteps(Dist(f), f.stepSize);
    LastStep(Dist(f), f.stepSize);
    assert Dist(f.(current := Advanced(f))) == Dist(f) - f.stepSize;
  }

  /** The channel levels one `processFading` call writes during a fade never exceed the steady
      levels, and the last step of a fade-on writes exactly them. */
  lemma FadeStepLevels(s: Strip, possibleSteps: nat)
    requires possibleSteps >= 1 && InFlight(s)
    ensures var r := ProcessFading(s, possibleSteps);
      var t := s.colorTemperature;
      && r.0.warmLevel <= SteadyLevel(WarmWhiteLightLevel(t), s.globalBrightness)
      && r.0.coldLevel <= SteadyLevel(ColdWhiteLightLevel(t), s.globalBrightness)
      && (s.state == FadingOn && StepsLeft(s) == 1 ==>
            && r.0.warmLevel == SteadyLevel(WarmWhiteLightLevel(t), s.globalBrightness)
            && r.0.coldLevel == SteadyLevel(ColdWhiteLightLevel(t), s.globalBrightness))
  {
    var f := s.fade;
    var position := Advanced(f);
    InFlightProcess(s, possibleSteps);
    WholeSteps(Dist(f), f.stepSize);
    LastStep(Dist(f), f.stepSize);
    var t := s.colorTemperature;
    FadeLevelBound(WarmWhiteLightLevel(t), position, s.globalBrightness);
    FadeLevelBound(ColdWhiteLightLevel(t), position, s.globalBrightness);
  }

  /** A whole number of steps is exactly one step when the quotient is one. */
  lemma LastStep(d: nat, step: nat)
    requires step >= 1 && d % step == 0
    ensures d / step == 1 <==> d == step
  {
    DivModUnique(d, step, d / step, 0);
    if d == step {
      DivModUnique(d, step, 1, 0);
    }
  }

  /** The position one step further in the direction of travel. */
  function Advanced(f: Fade): int
  {
    if f.decreasing then f.current - f.stepSize else f.current + f.stepSize
  }

  /** On a fade in progress the size_t position update does not wrap, and `processFading` writes
      the levels for the advanced position and either finishes or keeps everything else. */
  lemma InFlightProcess(s: Strip, possibleSteps: nat)
    requires possibleSteps >= 1 && InFlight(s)
    ensures var r := ProcessFading(s, possibleSteps);
      var p := Advanced(s.fade);
      var t := s.colorTemperature;
      && 0 <= p <= 10 * s.globalBrightness
      && r.0.fade == s.fade.(current := p)
      && r.0.warmLevel == FadeLevel(WarmWhiteLightLevel(t), p)
      && r.0.coldLevel == FadeLevel(ColdWhiteLightLevel(t), p)
      && (p == s.fade.target ==> r.0.state == (if s.state == FadingOn then On else Off) && r.1 == TaskPeriod)
      && (p != s.fade.target ==>
            && r.0 == s.(fade := s.fade.(current := p), warmLevel := r.0.warmLevel, coldLevel := r.0.coldLevel)
            && r.1 == s.fade.delayPerStep)
  {
    var f := s.fade;
    WholeSteps(Dist(f), f.stepSize);
    assert U32(f.current + (if f.decreasing then -(f.stepSize as int) else f.stepSize)) == Advanced(f);
  }

  /** The part of `FadeStep` the induction over a whole fade needs. */
  lemma FadeAdvance(s: Strip, possibleSteps: nat)
    requires possibleSteps >= 1 && InFlight(s)
    ensures var n := ProcessFading(s, possibleSteps).0;
      && (StepsLeft(s) == 1 ==> n.state == (if s.state == FadingOn then On else Off) && n.fade.current == s.fade.target)
      && (StepsLeft(s) > 1 ==> n.state == s.state && InFlight(n) && StepsLeft(n) == StepsLeft(s) - 1
                               && n.fade.target == s.fade.target && Dist(n.fade) < Dist(s.fade))
  {
    FadeStep(s, possibleSteps);
  }

  /** `k` successive `processFading` calls. */
  function FadeRun(s: Strip, possibleSteps: nat, k: nat): (r: Strip)
    requires possibleSteps >= 1 && TemperatureInRange(s.colorTemperature)
    ensures r.globalBrightness == s.globalBrightness && r.colorTemperature == s.colorTemperature
    decreases k
  {
    if k == 0 then s else FadeRun(ProcessFading(s, possibleSteps).0, possibleSteps, k - 1)
  }

  /** A fade in progress stays in its fading state for exactly `StepsLeft` calls and then ends in
      On (fade-on) or Off (fade-off) with the position at the target. */
  lemma {:induction false} FadeCompletes(s: Strip, possibleSteps: nat)
    requires possibleSteps >= 1 && InFlight(s)
    ensures FadeRun(s, possibleSteps, StepsLeft(s)).state == (if s.state == FadingOn then On else Off)
    ensures FadeRun(s, possibleSteps, StepsLeft(s)).fade.current == s.fade.target
    ensures forall j :: 0 <= j < StepsLeft(s) ==> FadeRun(s, possibleSteps, j).state == s.state
    decreases Dist(s.fade)
  {
    var next := ProcessFading(s, possibleSteps).0;
    FadeAdvance(s, possibleSteps);
    var k := StepsLeft(s);
    if k == 1 {
      assert FadeRun(s, possibleSteps, 1) == FadeRun(next, possibleSteps, 0);
    } else {
      FadeCompletes(next, possibleSteps);
      assert FadeRun(s, possibleSteps, k) == FadeRun(next, possibleSteps, k - 1);
      forall j | 0 <= j < k
        ensures FadeRun(s, possibleSteps, j).state == s.state
      {
        if j > 0 {
          assert FadeRun(s, possibleSteps, j) == FadeRun(next, possibleSteps, j - 1);
        }
      }
    }
  }

  /** Toggling a strip with non-zero brightness starts a fade in the new direction that needs
      between 1 and `possibleSteps` calls of `processFading`, fades all the way, and then
      rests in On or Off. */
  lemma {:induction false} ToggleFadeCompletes(s: Strip, possibleSteps: nat)
    requires possibleSteps >= 1 && TemperatureInRange(s.colorTemperature) && s.globalBrightness >= 1
    ensures var t := ToggleState(s);
      var k := StepsLeft(Restarted(t, possibleSteps));
      && 1 <= k <= possibleSteps
      && FadeRun(t, possibleSteps, k).state == (if HeadingOn(s.state) then Off else On)
      && (forall j :: 0 <= j < k ==> Fading(FadeRun(t, possibleSteps, j).state))
  {
    var t := ToggleState(s);
    var t0 := Restarted(t, possibleSteps);
    FadeStarts(t, possibleSteps);
    FadeCompletes(t0, possibleSteps);
    var k := StepsLeft(t0);
    forall j | 1 <= j
      ensures FadeRun(t, possibleSteps, j) == FadeRun(t0, possibleSteps, j)
    {
      assert FadeRun(t, possibleSteps, j) == FadeRun(ProcessFading(t, possibleSteps).0, possibleSteps, j - 1);
    }
    forall j | 0 <= j < k
      ensures Fading(FadeRun(t, possibleSteps, j).state)
    {
      if j > 0 {
        assert FadeRun(t, possibleSteps, j) == FadeRun(t0, possibleSteps, j);
      }
    }
    assert FadeRun(t, possibleSteps, k) == FadeRun(t0, possibleSteps, k);
  }

  /** With brightness 0 the fade has no steps: the first call overshoots the target of 0 and the
      strip keeps fading with an unbounded per-step delay. */
  lemma ZeroBrightnessFadeMissesTarget(s: Strip, possibleSteps: nat)
    requires possibleSteps >= 1 && TemperatureInRange(s.colorTemperature)
    requires Fading(s.state) && s.resetFade && s.globalBrightness == 0
    ensures var r := ProcessFading(s, possibleSteps);
      r.0.state == s.state && r.0.fade.current == 1 && r.0.fade.target == 0 && r.1 == Unbounded
  {
    ZeroBrightnessFade(s, possibleSteps);
    var f := PrepareFade(s, possibleSteps);
    assert f.current == 0 && f.target == 0 && f.stepSize == 1 && !f.decreasing;
    var position := U32(f.current + f.stepSize);
    assert position == 1 && position != f.target;
    var t := s.colorTemperature;
    var s1 := s.(resetFade := false,
                 fade := f.(current := position),
                 warmLevel := FadeLevel(WarmWhiteLightLevel(t), position),
                 coldLevel := FadeLevel(ColdWhiteLightLevel(t), position));
    assert ProcessFading(s, possibleSteps) == (s1, f.delayPerStep);
  }

  /** With brightness 0 there is nothing to fade: zero steps of size 1, no delay bound. */
  lemma ZeroBrightnessFade(s: Strip, possibleSteps: nat)
    requires possibleSteps >= 1 && s.globalBrightness == 0
    ensures PrepareFade(s, possibleSteps) == Fade(0, 0, 1, false, Unbounded)
  {
    assert Quantise(0, possibleSteps) == Quantised(1, 0);
    assert DelayPerStep(0, possibleSteps, 1) == Unbounded;
  }
}

=== FILE: light_driver_app.dfy ===
/** Light-driver start-up (light-driver Application.cxx): the driver index and the CAN
    acceptance filters it programs. */
module LightDriverApp {
  import opened MachineInt
  import opened CanIds
  import opened MessageProcessor

  /** `determineAddressBits`: the GPIO read is commented out and the index is fixed to 1. */
  function DetermineAddressBits(): (index: byte)
    ensures index != 0 && Construct(index).canStarted
    ensures Construct(index).filters == Filters(1)
  {
    1
  }

  /** The six filter identifiers: the two global commands, then Brightness and
      ColorTemperature for strip 0 and for strip 1 of this driver. */
  function Filters(index: byte): (ids: seq<nat>)
    ensures |ids| == 6
    ensures forall j :: 0 <= j < 6 ==> ids[j] < StandardIdLimit || index > 7
  {
    var offset := index * LightDriverOffset;
    [ BaseValue(Brightness), BaseValue(ColorTemperature)
    , BaseValue(Brightness) + offset, BaseValue(ColorTemperature) + offset
    , BaseValue(Brightness) + offset + LedStripOffset, BaseValue(ColorTemperature) + offset + LedStripOffset ]
  }

  /** Result of the constructor: whether the CAN bus was set up and with which filters. */
  datatype Boot = Boot(index: byte, canStarted: bool, filters: seq<nat>)

  /** The constructor after `determineAddressBits`: index 0 is refused (no CAN set-up at all). */
  function Construct(index: byte): (b: Boot)
    ensures b.index == index
    ensures b.canStarted <==> index != 0
    ensures !b.canStarted ==> b.filters == []
    ensures b.canStarted ==> b.filters == Filters(index)
  {
    if index == 0 then Boot(index, false, []) else Boot(index, true, Filters(index))
  }

  /** The firmware as built always boots as driver 1 and joins the bus with driver 1's filters. */
  lemma StartupJoinsAsDriverOne()
    ensures Construct(DetermineAddressBits()) == Boot(1, true, [0x11, 0x12, 0x21, 0x22, 0x26, 0x27])
  {
  }

  /** The acceptance filters and the dispatcher agree: an identifier of the address range passes
      the filters of driver `index` exactly when the dispatcher at that index acts on it, and then
      it is a Brightness or ColorTemperature identifier. */
  lemma FiltersMatchDecoder(index: byte, k: IdBase, driver: nat, strip: nat, rxData: seq<byte>)
    requires 1 <= index <= 7
    requires InAddressRange(driver, strip)
    requires |rxData| >= 2
    ensures Encode(k, driver, strip) in Filters(index)
        <==> DecodeFrame(index, Encode(k, driver, strip), rxData) != []
    ensures Encode(k, driver, strip) in Filters(index) ==> k == Brightness || k == ColorTemperature
  {
    DecodeEncoded(index, k, driver, strip, rxData);
    var id := Encode(k, driver, strip);
    if id in Filters(index) {
      var j :| 0 <= j < 6 && Filters(index)[j] == id;
      var kf := if j % 2 == 0 then Brightness else ColorTemperature;
      var df := if j < 2 then 0 else index as nat;
      var sf := if j < 4 then 0 else 1;
      assert id == Encode(kf, df, sf);
      EncodeInjective(k, driver, strip, kf, df, sf);
    }
    if k == Brightness || k == ColorTemperature {
      if driver == 0 && strip == 0 {
        assert id == Filters(index)[if k == Brightness then 0 else 1];
      } else if driver == index as nat {
        assert id == Filters(index)[(if k == Brightness then 2 else 3) + 2 * strip];
      }
    }
  }
}

=== FILE: machine_int.dfy ===
/** Machine-integer helpers: the C++ source computes with uint8_t, uint16_t, int16_t and
    32-bit size_t / uint32_t values; Dafny integers are unbounded, so every wrap-around,
    narrowing conversion and truncating division the firmware relies on is written out here. */
module MachineInt {

  type byte = x: int | 0 <= x < 0x100
  type uint16 = x: int | 0 <= x < 0x1_0000
  type uint32 = x: int | 0 <= x < 0x1_0000_0000

  /** Conversion of any integer to uint8_t (reduction modulo 2^8). */
  function U8(x: int): (r: byte)
    ensures (x - r) % 0x100 == 0
    ensures 0 <= x < 0x100 ==> r == x
  {
    x % 0x100
  }

  /** Conversion of any integer to uint16_t (reduction modulo 2^16). */
  function U16(x: int): (r: uint16)
    ensures (x - r) % 0x1_0000 == 0
    ensures 0 <= x < 0x1_0000 ==> r == x
  {
    x % 0x1_0000
  }

  /** Conversion of any integer to a 32-bit size_t / uint32_t (reduction modulo 2^32). */
  function U32(x: int): (r: uint32)
    ensures (x - r) % 0x1_0000_0000 == 0
    ensures 0 <= x < 0x1_0000_0000 ==> r == x
  {
    x % 0x1_0000_0000
  }

  /** Conversion of any integer to int16_t (two's complement reinterpretation of the low 16 bits). */
  function I16(x: int): (r: int)
    ensures -0x8000 <= r < 0x8000
    ensures (x - r) % 0x1_0000 == 0
    ensures -0x8000 <= x < 0x8000 ==> r == x
  {
    var v := x % 0x1_0000;
    if v >= 0x8000 then v - 0x1_0000 else v
  }

  function Abs(x: int): (r: nat)
    ensures r == x || r == -x
  {
    if x < 0 then -x else x
  }

  /** C++ integer division, which truncates toward zero (Dafny's `/` is Euclidean). */
  function TruncDiv(a: int, b: int): (q: int)
    requires b > 0
    ensures Abs(q) * b <= Abs(a) < (Abs(q) + 1) * b
    ensures a >= 0 ==> q >= 0
    ensures a <= 0 ==> q <= 0
  {
    if a >= 0 then a / b else -((-a) / b)
  }

  /** Integer ceiling of a / b for a non-negative numerator. */
  function CeilDiv(a: nat, b: nat): (q: nat)
    requires b > 0
    ensures (q - 1) * b < a <= q * b
  {
    (a + b - 1) / b
  }
}

/** The failure-compatible Option datatype used for partial decoders. */
module Wrappers {
  datatype Option<+T> = None | Some(value: T)
}

=== FILE: message_processor.dfy ===
/** The light driver's dispatcher (MessageProcessor.hpp): it reads a header and its payload
    from the RX stream, resets the stream on a short read, decodes the identifier relative to
    the board's own driver index and turns the frame into strip commands. */
module MessageProcessor {
  import opened MachineInt
  import opened Wrappers
  import opened Stream
  import opened CanIds

  /** The commands handed to the two strips. */
  datatype Action =
    | SetBrightness(strip: nat, brightness: byte)
    | SetColorTemperature(strip: nat, kelvin: uint16)

  /** `(rxData[1] << 8) | rxData[0]` for two bytes promoted to int. */
  function CombineBytes(high: byte, low: byte): (v: uint16)
    ensures v % 0x100 == low && v / 0x100 == high
  {
    high * 0x100 + low
  }

  /** `processCommand`: a Brightness command takes the first payload byte, a ColorTemperature
      command the first two bytes as a little-endian value; every other value does nothing. */
  function ProcessCommand(command: byte, rxData: seq<byte>, strip: nat): (actions: seq<Action>)
    requires |rxData| >= 2
    ensures |actions| <= 1
    ensures IdBaseOf(command) == Some(Brightness) <==> actions == [SetBrightness(strip, rxData[0])]
    ensures IdBaseOf(command) == Some(ColorTemperature)
        <==> actions == [SetColorTemperature(strip, (rxData[1] as int) * 0x100 + (rxData[0] as int))]
    ensures IdBaseOf(command) != Some(Brightness) && IdBaseOf(command) != Some(ColorTemperature)
        ==> actions == []
  {
    match IdBaseOf(command)
    case Some(Brightness) => [SetBrightness(strip, rxData[0])]
    case Some(ColorTemperature) => [SetColorTemperature(strip, CombineBytes(rxData[1], rxData[0]))]
    case _ => []
  }

  /** The identifier decode of `taskMain`. Identifiers below 0x20 are global: 0x10..0x14 is
      applied to strip 0 and then strip 1, anything else is dropped. Otherwise the own driver
      offset is subtracted in uint8_t arithmetic, and a residue above 0x14 selects strip 1
      after subtracting the strip offset. */
  function DecodeFrame(ownIndex: byte, identifier: nat, rxData: seq<byte>): (actions: seq<Action>)
    requires |rxData| >= 2
    ensures |actions| <= 2
  {
    if identifier < BaseValue(Status) + LightDriverOffset then
      if identifier <= BaseValue(Reserved2) then
        ProcessCommand(identifier, rxData, 0) + ProcessCommand(identifier, rxData, 1)
      else []
    else
      var command := U8(identifier - ownIndex * LightDriverOffset);
      if command > BaseValue(Reserved2) then ProcessCommand(U8(command - LedStripOffset), rxData, 1)
      else ProcessCommand(command, rxData, 0)
  }

  /** The action a command kind produces on one strip, given the payload bytes. */
  function KindAction(k: IdBase, strip: nat, rxData: seq<byte>): (actions: seq<Action>)
    requires |rxData| >= 2
    ensures actions == ProcessCommand(BaseValue(k), rxData, strip)
  {
    BaseValuesConsecutive(k);
    match k
    case Brightness => [SetBrightness(strip, rxData[0])]
    case ColorTemperature => [SetColorTemperature(strip, (rxData[1] as int) * 0x100 + (rxData[0] as int))]
    case _ => []
  }

  /** Decoding every identifier of the address range at a light driver with index 1..7:
      a global identifier (driver 0, strip 0) acts on both strips, an identifier addressed to this
      driver acts on the addressed strip, and everything else, including the strip-1 global
      identifiers 0x15..0x19 and every other driver's identifiers, is ignored. Status and the
      reserved kinds never act. */
  lemma DecodeEncoded(ownIndex: byte, k: IdBase, driver: nat, strip: nat, rxData: seq<byte>)
    requires 1 <= ownIndex <= 7
    requires InAddressRange(driver, strip)
    requires |rxData| >= 2
    ensures DecodeFrame(ownIndex, Encode(k, driver, strip), rxData)
         == if driver == 0 && strip == 0 then KindAction(k, 0, rxData) + KindAction(k, 1, rxData)
            else if driver == ownIndex then KindAction(k, strip, rxData)
            else []
  {
    var id := Encode(k, driver, strip);
    var b := BaseValue(k);
    BaseValuesConsecutive(k);
    if driver == 0 {
      if strip == 1 {
        assert 0x14 < id < 0x20;
      }
    } else {
      assert id >= 0x20;
      var m := driver - ownIndex;
      var command := U8(id - ownIndex * LightDriverOffset);
      assert id - ownIndex * LightDriverOffset == b + m * 0x10 + strip * 0x05;
      if m == 0 {
        assert command == b + strip * 0x05;
      } else if m > 0 {
        assert command == b + m * 0x10 + strip * 0x05;
        assert command > 0x14;
        assert U8(command - LedStripOffset) == command - 0x05;
      } else if m == -1 {
        assert command == b - 0x10 + strip * 0x05;
        assert command <= 0x14;
      } else {
        assert command == 0x100 + b + m * 0x10 + strip * 0x05;
        assert command > 0x14;
        assert U8(command - LedStripOffset) == command - 0x05;
      }
    }
  }

  /** The two payload kinds decode to what the sender encoded: a single byte for Brightness and
      a little-endian uint16 for ColorTemperature. */
  lemma PayloadRoundTrip(strip: nat, low: byte, high: byte, rest: seq<byte>)
    ensures KindAction(Brightness, strip, [low, high] + rest) == [SetBrightness(strip, low)]
    ensures KindAction(ColorTemperature, strip, [low, high] + rest)
         == [SetColorTemperature(strip, (high as int) * 0x100 + (low as int))]
  {
  }

  // ------------------------------------------------------------------------------------------
  // One iteration of the task loop over the RX stream

  /** The dispatcher's state: its own driver index and the payload area of the message buffer,
      which keeps the bytes of earlier frames where a shorter payload does not overwrite them. */
  datatype Processor = Processor(ownIndex: byte, rxData: seq<byte>)

  predicate ValidProcessor(p: Processor)
  {
    |p.rxData| >= 2
  }

  datatype DispatchResult = ResetStream | Dispatched(actions: seq<Action>)

  /** Framing rule of `taskMain`: the header read must deliver a header, and the payload read
      must return exactly `DataLength` bytes, which must be non-zero; otherwise the stream is
      reset and the frame dropped. The bytes read overwrite the front of the payload area. */
  function ProcessFrame(p: Processor, headerRead: HeaderRead, payload: seq<byte>): (r: (Processor, DispatchResult))
    requires ValidProcessor(p)
    requires headerRead.HeaderReceived? ==> |payload| <= headerRead.header.dataLength <= |p.rxData|
    ensures ValidProcessor(r.0) && r.0.ownIndex == p.ownIndex
    ensures headerRead.NothingRead? ==> r == (p, ResetStream)
    ensures r.1.Dispatched? <==>
              headerRead.HeaderReceived? && |payload| == headerRead.header.dataLength && |payload| != 0
    ensures headerRead.HeaderReceived? ==> r.0.rxData == payload + p.rxData[|payload|..]
    ensures r.1.Dispatched? ==> r.1.actions == DecodeFrame(p.ownIndex, headerRead.header.identifier, r.0.rxData)
  {
    match headerRead
    case NothingRead => (p, ResetStream)
    case HeaderReceived(header) =>
      var p' := p.(rxData := payload + p.rxData[|payload|..]);
      if |payload| == 0 || |payload| != header.dataLength then (p', ResetStream)
      else (p', Dispatched(DecodeFrame(p.ownIndex, header.identifier, p'.rxData)))
  }

  /** Whether the next header of the queue fits the payload area. */
  predicate FrontFits(p: Processor, q: Queue)
  {
    q != [] && q[0].HeaderToken? ==> q[0].header.dataLength <= |p.rxData|
  }

  /** One loop iteration against the RX stream: read a header, read its payload, and on a
      framing error reset (empty) the stream. */
  function Step(p: Processor, q: Queue): (r: (Processor, DispatchResult, Queue))
    requires ValidProcessor(p) && FrontFits(p, q)
    ensures ValidProcessor(r.0) && r.0.ownIndex == p.ownIndex && |r.0.rxData| == |p.rxData|
    ensures r.1.ResetStream? ==> r.2 == []
    ensures r.1.Dispatched? ==> |r.2| < |q|
    ensures |r.2| <= |q| && r.2 == q[|q| - |r.2|..]
  {
    var (headerRead, q1) := ReceiveHeader(q);
    match headerRead
    case NothingRead => (p, ResetStream, [])
    case HeaderReceived(header) =>
      var (payload, q2) := ReceivePayload(q1, header.dataLength);
      var (p', result) := ProcessFrame(p, headerRead, payload);
      (p', result, if result.ResetStream? then [] else q2)
  }

  /** A frame with no payload (every kind except Brightness and ColorTemperature) is always
      discarded with a stream reset. */
  lemma EmptyFrameResets(p: Processor, header: Header, rest: Queue)
    requires ValidProcessor(p) && header.dataLength == 0
    ensures Step(p, [HeaderToken(header)] + rest).1 == ResetStream
    ensures Step(p, [HeaderToken(header)] + rest).2 == []
  {
    assert ([HeaderToken(header)] + rest)[1..] == rest;
  }
}

=== FILE: rx_pipeline.dfy ===
/** The receive path end to end: frames enqueued by the receive interrupt are taken apart by
    the dispatcher in arrival order, and a torn frame costs only itself. */
module RxPipeline {
  import opened MachineInt
  import opened Wrappers
  import opened Stream
  import opened CanInterface
  import opened MessageProcessor

  /** A frame the interrupt can deliver and the dispatcher accepts. */
  predicate Deliverable(p: Processor, m: RxMessage)
  {
    WellFormedRx(m) && 1 <= m.header.dataLength <= |p.rxData|
  }

  predicate AllDeliverable(p: Processor, frames: seq<RxMessage>)
  {
    forall i :: 0 <= i < |frames| ==> WellFormedRx(frames[i]) && Deliverable(p, frames[i])
  }

  /** One dispatcher step on a queue that starts with an interrupt-delivered frame decodes that
      frame from its own payload bytes (and the untouched tail of the payload area) and leaves the
      rest of the queue. */
  lemma {:induction false} IsrFrameDispatched(p: Processor, m: RxMessage, rest: Queue)
    requires ValidProcessor(p) && Deliverable(p, m)
    requires rest == [] || rest[0].HeaderToken?
    ensures var n := m.header.dataLength;
            var data := m.buffer[..n] + p.rxData[n..];
            (Step(p, ReceiveFifoMessageFromIsr(Some(m)) + rest)
             == (p.(rxData := data), Dispatched(DecodeFrame(p.ownIndex, m.header.identifier, data)), rest))
  {
    IsrFrameReadsBack(m, rest);
  }

  /** A header announcing more payload than follows it (the interrupt's payload write was lost)
      makes the dispatcher reset the stream; a well-formed frame that arrives afterwards is then
      decoded normally, so the stream does not stay out of step. */
  lemma {:induction false} TornFrameRecovers(p: Processor, header: Header, partial: seq<byte>, m: RxMessage)
    requires ValidProcessor(p) && Deliverable(p, m)
    requires |partial| < header.dataLength <= |p.rxData|
    ensures var (p1, result, q1) := Step(p, [HeaderToken(header)] + DataTokens(partial));
            && result == ResetStream && q1 == []
            && Step(p1, q1 + ReceiveFifoMessageFromIsr(Some(m))).1
               == Dispatched(DecodeFrame(p.ownIndex, m.header.identifier,
                                         m.buffer[..m.header.dataLength] + p1.rxData[m.header.dataLength..]))
  {
    var q := [HeaderToken(header)] + DataTokens(partial);
    assert q[1..] == DataTokens(partial) + [];
    ReceivePayloadExact(partial, []);
    if |partial| > 0 {
      assert ReceivePayload(q[1..], header.dataLength) == (partial, []) by {
        ShortPayloadRead(partial, header.dataLength);
      }
    } else {
      assert q[1..] == [];
    }
    var (p1, result, q1) := Step(p, q);
    assert q1 + ReceiveFifoMessageFromIsr(Some(m)) == ReceiveFifoMessageFromIsr(Some(m)) + [];
    IsrFrameDispatched(p1, m, []);
  }

  /** Reading `n` payload bytes from a queue that holds fewer returns all of them. */
  lemma {:induction false} ShortPayloadRead(bytes: seq<byte>, n: nat)
    requires |bytes| <= n
    ensures ReceivePayload(DataTokens(bytes), n) == (bytes, [])
    decreases |bytes|
  {
    var q := DataTokens(bytes);
    if bytes != [] {
      assert q[0] == DataByte(bytes[0]);
      assert q[1..] == DataTokens(bytes[1..]);
      ShortPayloadRead(bytes[1..], n - 1);
      assert [bytes[0]] + bytes[1..] == bytes;
    }
  }

  /** The stream contents after the interrupt has delivered `frames` in order. */
  function IsrQueue(frames: seq<RxMessage>): (q: Queue)
    requires forall i :: 0 <= i < |frames| ==> WellFormedRx(frames[i])
    ensures frames == [] <==> q == []
    ensures frames != [] ==> q[0].HeaderToken?
  {
    if frames == [] then []
    else ReceiveFifoMessageFromIsr(Some(frames[0])) + IsrQueue(frames[1..])
  }

  /** Every header in the queue announces a payload that fits an area of `size` bytes. */
  predicate HeadersFit(q: Queue, size: nat)
  {
    forall i :: 0 <= i < |q| && q[i].HeaderToken? ==> q[i].header.dataLength <= size
  }

  lemma HeadersFitAppend(a: Queue, b: Queue, size: nat)
    requires HeadersFit(a, size) && HeadersFit(b, size)
    ensures HeadersFit(a + b, size)
  {
    forall i | 0 <= i < |a + b| && (a + b)[i].HeaderToken?
      ensures (a + b)[i].header.dataLength <= size
    {
      if i < |a| {
        assert (a + b)[i] == a[i];
      } else {
        assert (a + b)[i] == b[i - |a|];
      }
    }
  }

  lemma HeadersFitSuffix(q: Queue, k: nat, size: nat)
    requires HeadersFit(q, size) && k <= |q|
    ensures HeadersFit(q[k..], size)
  {
    assert forall i :: 0 <= i < |q[k..]| ==> q[k..][i] == q[k + i];
  }

  /** `n` iterations of the dispatcher loop, collecting their results. */
  function Run(p: Processor, q: Queue, n: nat): (r: (Processor, seq<DispatchResult>, Queue))
    requires ValidProcessor(p)
    requires HeadersFit(q, |p.rxData|)
    ensures |r.1| == n
    ensures ValidProcessor(r.0) && r.0.ownIndex == p.ownIndex && |r.0.rxData| == |p.rxData|
    ensures |r.2| <= |q| && r.2 == q[|q| - |r.2|..]
    ensures ResetStream in r.1 ==> r.2 == []
    decreases n
  {
    if n == 0 then (p, [], q)
    else
      var (p1, result, q1) := Step(p, q);
      HeadersFitSuffix(q, |q| - |q1|, |p.rxData|);
      var (p2, results, q2) := Run(p1, q1, n - 1);
      RunStepCombines(q, q1, q2, result, results);
      (p2, [result] + results, q2)
  }

  /** One loop iteration followed by the rest of the run: the queue left is still a suffix of
      the original, and a reset anywhere leaves nothing. */
  lemma RunStepCombines(q: Queue, q1: Queue, q2: Queue, result: DispatchResult, results: seq<DispatchResult>)
    requires |q1| <= |q| && q1 == q[|q| - |q1|..]
    requires |q2| <= |q1| && q2 == q1[|q1| - |q2|..]
    requires result.ResetStream? ==> q1 == []
    requires ResetStream in results ==> q2 == []
    ensures |q2| <= |q| && q2 == q[|q| - |q2|..]
    ensures ResetStream in [result] + results ==> q2 == []
  {
    assert ResetStream in [result] + results ==> result == ResetStream || ResetStream in results;
  }

  /** What the dispatcher should produce for `frames`, frame by frame: each frame's actions,
      decoded from its payload over the payload area left by the frames before it. */
  function ExpectedResults(p: Processor, frames: seq<RxMessage>): seq<DispatchResult>
    requires ValidProcessor(p)
    requires AllDeliverable(p, frames)
    decreases |frames|
  {
    if frames == [] then []
    else
      assert Deliverable(p, frames[0]);
      assert forall i :: 0 <= i < |frames[1..]| ==> frames[1..][i] == frames[i + 1];
      var n := frames[0].header.dataLength;
      var data := frames[0].buffer[..n] + p.rxData[n..];
      assert |data| == |p.rxData|;
      assert AllDeliverable(p.(rxData := data), frames[1..]);
      [Dispatched(DecodeFrame(p.ownIndex, frames[0].header.identifier, data))]
        + ExpectedResults(p.(rxData := data), frames[1..])
  }

  /** The dispatcher's acceptance of frames depends only on the size of its payload area. */
  lemma AllDeliverableTail(p: Processor, p1: Processor, frames: seq<RxMessage>)
    requires frames != [] && AllDeliverable(p, frames) && |p1.rxData| == |p.rxData|
    ensures AllDeliverable(p1, frames[1..])
  {
    assert forall i :: 0 <= i < |frames[1..]| ==> frames[1..][i] == frames[i + 1];
  }

  /** Every header the interrupt enqueues fits the payload area. */
  lemma {:induction false} IsrQueueFits(p: Processor, frames: seq<RxMessage>)
    requires AllDeliverable(p, frames)
    ensures HeadersFit(IsrQueue(frames), |p.rxData|)
    decreases |frames|
  {
    if frames != [] {
      var m := frames[0];
      var head := ReceiveFifoMessageFromIsr(Some(m));
      AllDeliverableTail(p, p, frames);
      IsrQueueFits(p, frames[1..]);
      assert HeadersFit(head, |p.rxData|) by {
        forall i | 0 <= i < |head| && head[i].HeaderToken?
          ensures head[i].header.dataLength <= |p.rxData|
        {
        }
      }
      HeadersFitAppend(head, IsrQueue(frames[1..]), |p.rxData|);
    }
  }

  /** Frames reach the dispatcher in the order the interrupt delivered them: after one loop
      iteration per frame every frame has been dispatched, in order, and the stream is empty. */
  lemma {:induction false} FramesDispatchedInOrder(p: Processor, frames: seq<RxMessage>)
    requires ValidProcessor(p)
    requires AllDeliverable(p, frames)
    ensures HeadersFit(IsrQueue(frames), |p.rxData|)
    ensures Run(p, IsrQueue(frames), |frames|).1 == ExpectedResults(p, frames)
    ensures Run(p, IsrQueue(frames), |frames|).2 == []
    decreases |frames|
  {
    IsrQueueFits(p, frames);
    if frames != [] {
      var m := frames[0];
      assert Deliverable(p, m);
      var n := m.header.dataLength;
      var p1 := p.(rxData := m.buffer[..n] + p.rxData[n..]);
      var tail := IsrQueue(frames[1..]);
      AllDeliverableTail(p, p1, frames);
      FramesDispatchedInOrder(p1, frames[1..]);
      IsrFrameDispatched(p, m, tail);
    }
  }
}

=== FILE: show_status_animation.dfy ===
/** The status display of the feedback bar (ShowStatusAnimation.hpp): a brightness bar or a
    colour-temperature marker faded in over 150 ms, and a fade to black 5 s after the last
    update. The LED task's tick count is an input. */
module ShowStatusAnimation {
  import opened MachineInt
  import opened LedData
  import opened LedAnimationBase
  import opened FadingAnimation

  const ShowFadingTimeMs: real := 150.0
  const TurnOffFadingTimeMs: real := 300.0
  const TimeoutSeconds: nat := 5

  /** The status animation: its own base, the fade it drives, the tick count of the last update
      and whether the timeout is running. */
  datatype StatusAnimation = StatusAnimation(
    base: AnimationBase,
    fader: Fader,
    ticksCounter: uint32,
    isTimeoutRunning: bool)

  predicate ValidStatus(a: StatusAnimation)
  {
    ValidFader(a.fader)
  }

  /** `triggerFading`: restart the fade and adopt its delay. */
  function TriggerFading(a: StatusAnimation, tickRate: nat): (r: StatusAnimation)
    requires ValidStatus(a) && tickRate >= 1
    ensures ValidStatus(r)
    ensures r.fader == ResetFader(a.fader, tickRate)
    ensures GetDelay(r.base) == RefreshTime(tickRate)
    ensures r.ticksCounter == a.ticksCounter && r.isTimeoutRunning == a.isTimeoutRunning
  {
    var fader := ResetFader(a.fader, tickRate);
    a.(fader := fader, base := SetDelay(a.base, GetDelay(fader.base)))
  }

  /** `resetAnimation` of the status animation: clear the finished flag, note the current tick
      count, start the timeout and trigger the fade. */
  function ResetStatus(a: StatusAnimation, now: uint32, tickRate: nat): (r: StatusAnimation)
    requires ValidStatus(a) && tickRate >= 1
    ensures ValidStatus(r)
    ensures !IsAnimationFinished(r.base) && r.ticksCounter == now && r.isTimeoutRunning
    ensures r.fader == ResetFader(a.fader, tickRate)
  {
    TriggerFading(a.(base := ResetBase(a.base), ticksCounter := now, isTimeoutRunning := true), tickRate)
  }

  /** The bar of `showBrightness`: LEDs below the clamped level lit at half neutral white, the
      rest at 5 % blue. */
  function BrightnessBar(lastLedIndex: byte): (targets: seq<Color>)
    ensures |targets| == NumberOfFeedbackLeds
    ensures forall i :: 0 <= i < NumberOfFeedbackLeds ==>
      (targets[i] == Scaled(0.5, NeutralWhite) <==> i < lastLedIndex)
      && (targets[i] == Scaled(0.05, Blue) <==> i >= lastLedIndex)
  {
    var n := if lastLedIndex > NumberOfFeedbackLeds then NumberOfFeedbackLeds else lastLedIndex;
    seq(NumberOfFeedbackLeds, i requires 0 <= i < NumberOfFeedbackLeds =>
      if i < n then Scaled(0.5, NeutralWhite) else Scaled(0.05, Blue))
  }

  /** The marker of `showColorTemperature`: every template colour at 20 %, except the clamped
      position (1-based) at 80 %. */
  function ColorTemperatureMarker(currentLedPosition: byte): (targets: seq<Color>)
    ensures |targets| == NumberOfFeedbackLeds
    ensures var p := if currentLedPosition < 1 then 1 else if currentLedPosition > NumberOfFeedbackLeds then NumberOfFeedbackLeds else currentLedPosition;
      forall i :: 0 <= i < NumberOfFeedbackLeds ==>
        targets[i] == (if i == p - 1 then Scaled(0.8, TemplateColor(i)) else Scaled(0.2, TemplateColor(i)))
  {
    var p := if currentLedPosition < 1 then 1 else if currentLedPosition > NumberOfFeedbackLeds then NumberOfFeedbackLeds else currentLedPosition;
    var dimmed := seq(NumberOfFeedbackLeds, i requires 0 <= i < NumberOfFeedbackLeds => Scaled(0.2, TemplateColor(i)));
    dimmed[p - 1 := Scaled(0.8, TemplateColor(p - 1))]
  }

  /** `showBrightness`. */
  function ShowBrightness(a: StatusAnimation, lastLedIndex: byte, now: uint32, tickRate: nat): (r: StatusAnimation)
    requires ValidStatus(a) && tickRate >= 1
    ensures ValidStatus(r) && r.isTimeoutRunning && r.ticksCounter == now
    ensures r.fader.fadingTimeMs == ShowFadingTimeMs
    ensures r.fader.targets == BrightnessBar(lastLedIndex)
    ensures !IsAnimationFinished(r.fader.base) && !IsAnimationFinished(r.base)
  {
    ResetStatus(a.(fader := a.fader.(fadingTimeMs := ShowFadingTimeMs, targets := BrightnessBar(lastLedIndex))), now, tickRate)
  }

  /** `showColorTemperature`. */
  function ShowColorTemperature(a: StatusAnimation, currentLedPosition: byte, now: uint32, tickRate: nat): (r: StatusAnimation)
    requires ValidStatus(a) && tickRate >= 1
    ensures ValidStatus(r) && r.isTimeoutRunning && r.ticksCounter == now
    ensures r.fader.fadingTimeMs == ShowFadingTimeMs
    ensures r.fader.targets == ColorTemperatureMarker(currentLedPosition)
    ensures !IsAnimationFinished(r.fader.base) && !IsAnimationFinished(r.base)
  {
    ResetStatus(a.(fader := a.fader.(fadingTimeMs := ShowFadingTimeMs, targets := ColorTemperatureMarker(currentLedPosition))), now, tickRate)
  }

  /** `turnOff`: fade every LED to off over 300 ms; the timeout state is left alone. */
  function TurnOff(a: StatusAnimation, tickRate: nat): (r: StatusAnimation)
    requires ValidStatus(a) && tickRate >= 1
    ensures ValidStatus(r)
    ensures r.fader.fadingTimeMs == TurnOffFadingTimeMs
    ensures forall i :: 0 <= i < NumberOfFeedbackLeds ==> r.fader.targets[i] == ColorOff
    ensures r.isTimeoutRunning == a.isTimeoutRunning && r.ticksCounter == a.ticksCounter
    ensures !IsAnimationFinished(r.fader.base)
  {
    var off := seq(NumberOfFeedbackLeds, _ => ColorOff);
    TriggerFading(a.(fader := a.fader.(fadingTimeMs := TurnOffFadingTimeMs, targets := off)), tickRate)
  }

  /** Whether more than five seconds of ticks have passed since the last update (tick counts
      are 32-bit and wrap). */
  function TimedOut(a: StatusAnimation, now: uint32, tickRate: nat): (fired: bool)
    requires tickRate >= 1
    ensures a.ticksCounter <= now ==> (fired <==> now - a.ticksCounter > TimeoutSeconds * tickRate)
    ensures now < a.ticksCounter ==> (fired <==> now + 0x1_0000_0000 - a.ticksCounter > TimeoutSeconds * tickRate)
  {
    var elapsed := U32(now - a.ticksCounter);
    ElapsedComparison(elapsed, tickRate);
    assert elapsed == if a.ticksCounter <= now then now - a.ticksCounter
                      else now + 0x1_0000_0000 - a.ticksCounter;
    elapsed as real / tickRate as real > TimeoutSeconds as real
  }

  /** `doAnimationStep`: on timeout turn the bar off and stop the timeout; then, if the fade has
      finished, fall back to the 20 ms idle delay, otherwise advance the fade. */
  function StatusStep(a: StatusAnimation, now: uint32, tickRate: nat, isZero: ColorDiff -> bool): (r: StatusAnimation)
    requires ValidStatus(a) && tickRate >= 1
    ensures ValidStatus(r)
    ensures var a1 := if a.isTimeoutRunning && TimedOut(a, now, tickRate)
                      then TurnOff(a, tickRate).(isTimeoutRunning := false) else a;
      && r.ticksCounter == a.ticksCounter
      && r.isTimeoutRunning == (a.isTimeoutRunning && !TimedOut(a, now, tickRate))
      && (IsAnimationFinished(a1.fader.base) ==> GetDelay(r.base) == DefaultRefreshDelay && r.fader == a1.fader)
      && (!IsAnimationFinished(a1.fader.base) ==> r.base == a1.base && r.fader == FaderStep(a1.fader, isZero))
  {
    var a1 := if a.isTimeoutRunning && TimedOut(a, now, tickRate) then TurnOff(a, tickRate).(isTimeoutRunning := false) else a;
    if IsAnimationFinished(a1.fader.base) then a1.(base := SetDelay(a1.base, DefaultRefreshDelay))
    else a1.(fader := FaderStep(a1.fader, isZero))
  }

  /** The timeout fires exactly when it is running and more than `5 * tickRate` ticks have
      elapsed: then the bar starts fading to off and the timeout stops; otherwise the timeout
      state is unchanged. */
  lemma TimeoutTurnsOff(a: StatusAnimation, now: uint32, tickRate: nat, isZero: ColorDiff -> bool)
    requires ValidStatus(a) && tickRate >= 1
    ensures var r := StatusStep(a, now, tickRate, isZero);
      if a.isTimeoutRunning && U32(now - a.ticksCounter) > TimeoutSeconds * tickRate then
        && !r.isTimeoutRunning
        && r.fader.fadingTimeMs == TurnOffFadingTimeMs
        && (forall i :: 0 <= i < NumberOfFeedbackLeds ==> r.fader.targets[i] == ColorOff)
        && r.fader == FaderStep(TurnOff(a, tickRate).fader, isZero)
      else
        r.isTimeoutRunning == a.isTimeoutRunning && r.ticksCounter == a.ticksCounter && r.fader.targets == a.fader.targets
  {
    var elapsed := U32(now - a.ticksCounter);
    ElapsedComparison(elapsed, tickRate);
  }

  lemma ElapsedComparison(elapsed: nat, tickRate: nat)
    requires tickRate >= 1
    ensures elapsed as real / tickRate as real > TimeoutSeconds as real <==> elapsed > TimeoutSeconds * tickRate
  {
    var x := elapsed as real / tickRate as real;
    assert x * tickRate as real == elapsed as real;
  }

  /** A new show request restarts the timeout from its own tick, whatever was shown before. */
  lemma ShowRestartsTimeout(a: StatusAnimation, level: byte, now: uint32, later: uint32, tickRate: nat)
    requires ValidStatus(a) && tickRate >= 1
    ensures ShowBrightness(ShowBrightness(a, level, now, tickRate), level, later, tickRate).ticksCounter == later
    ensures ShowColorTemperature(ShowBrightness(a, level, now, tickRate), level, later, tickRate).isTimeoutRunning
  {
  }
}

=== FILE: state_machine.dfy ===
/** The control panel's input logic (StateMachine.hpp): per-strip brightness and colour-temperature
    levels on a 12-step scale, the power flags, and the CAN command plus feedback-bar request that
    every encoder movement and button press produces. */
module PanelStateMachine {
  import opened MachineInt
  import opened CanIds
  import opened LedData

  const NumberOfLedStrips: nat := 2
  const MaximumLevel: nat := NumberOfFeedbackLeds
  const DefaultBrightnessLevel: byte := 9
  const DefaultColorTemperatureLevel: byte := 6
  const StepPerBrightnessLevel: nat := 8
  const StepPerColorTemperatureLevel: nat := 300
  /** One step below 2700 K, because colour-temperature levels start at 1. */
  const StartColorTemperature: nat := 2700 - StepPerColorTemperatureLevel
  const MaximumColorTemperature: nat := 6500

  /** The panel: its address and, per strip, the brightness level, the colour-temperature level
      and the power flag. */
  datatype Panel = Panel(
    address: byte,
    brightnessLevels: seq<byte>,
    colorTemperatureLevels: seq<byte>,
    powerState: seq<bool>)

  predicate Valid(p: Panel)
  {
    |p.brightnessLevels| == NumberOfLedStrips
    && |p.colorTemperatureLevels| == NumberOfLedStrips
    && |p.powerState| == NumberOfLedStrips
  }

  /** The level ranges the encoders keep: brightness in [0, 12], colour temperature in [1, 12]. */
  predicate LevelsInRange(p: Panel)
  {
    Valid(p)
    && (forall i :: 0 <= i < NumberOfLedStrips ==> p.brightnessLevels[i] <= MaximumLevel)
    && (forall i :: 0 <= i < NumberOfLedStrips ==> 1 <= p.colorTemperatureLevels[i] <= MaximumLevel)
  }

  /** The panel as constructed: default levels (72 % and 4200 K on the light drivers), both
      strips switched off. */
  function Initial(address: byte): (p: Panel)
    ensures LevelsInRange(p) && p.address == address
    ensures forall i :: 0 <= i < NumberOfLedStrips ==> !p.powerState[i]
  {
    Panel(address,
          [DefaultBrightnessLevel, DefaultBrightnessLevel],
          [DefaultColorTemperatureLevel, DefaultColorTemperatureLevel],
          [false, false])
  }

  /** `numberOfEncoders`: the central panel (address 0) has four encoders, the others two. */
  function EncoderCount(address: byte): nat
  {
    if address == 0 then 4 else 2
  }

  /** A `sendCanMessage` call. */
  datatype Command = Command(kind: IdBase, driver: byte, strip: byte, payload: uint16)

  /** The status request handed to the feedback LED bar. */
  datatype Feedback = ShowBrightness(level: byte) | ShowColorTemperature(level: byte)

  /** What a published level produces: one CAN command and one feedback request. */
  datatype Output = Output(command: Command, feedback: Feedback)

  /** The (driver, strip) a panel addresses: the central panel drives the long strips, strip 0 of
      drivers 1 and 2; any other panel drives strip 1 of the driver with its own address. */
  function Target(address: byte, ledIndex: nat): (t: (byte, byte))
    ensures address == 0 && ledIndex < NumberOfLedStrips ==> t == (1 + ledIndex, 0)
    ensures address != 0 ==> t == (address, 1)
  {
    if address == 0 then (U8(1 + ledIndex), 0) else (address, 1)
  }

  /** `publishBrightness`'s payload: `level * 8` as uint8_t, capped at 100. */
  function BrightnessPercentage(level: byte): (percentage: byte)
    ensures percentage <= 100
    ensures level <= MaximumLevel ==> percentage == level * StepPerBrightnessLevel
  {
    var x := U8(level * StepPerBrightnessLevel);
    if x > 100 then 100 else x
  }

  /** `publishColorTemperature`'s payload: `2400 + 300 * level` as uint16_t, capped at 6500. */
  function ColorTemperatureKelvin(level: byte): (kelvin: uint16)
    ensures kelvin <= MaximumColorTemperature
    ensures 1 <= level <= MaximumLevel ==>
              kelvin == StartColorTemperature + level * StepPerColorTemperatureLevel && 2700 <= kelvin <= 6000
  {
    var x := U16(StartColorTemperature + level * StepPerColorTemperatureLevel);
    if x > MaximumColorTemperature then MaximumColorTemperature else x
  }

  /** Within the panel's level ranges, distinct levels publish distinct values, so the light
      driver can tell every level apart. */
  lemma PublishedValuesDistinct(a: byte, b: byte)
    requires a <= MaximumLevel && b <= MaximumLevel && a != b
    ensures BrightnessPercentage(a) != BrightnessPercentage(b)
    ensures 1 <= a && 1 <= b ==> ColorTemperatureKelvin(a) != ColorTemperatureKelvin(b)
  {
  }

  /** `publishBrightness`. */
  function PublishBrightness(address: byte, level: byte, ledIndex: nat): (o: Output)
    ensures o.command.kind == Brightness && o.command.payload == BrightnessPercentage(level)
    ensures (o.command.driver, o.command.strip) == Target(address, ledIndex)
    ensures o.feedback == ShowBrightness(level)
  {
    var (driver, strip) := Target(address, ledIndex);
    Output(Command(Brightness, driver, strip, BrightnessPercentage(level)), ShowBrightness(level))
  }

  /** `publishColorTemperature`. */
  function PublishColorTemperature(address: byte, level: byte, ledIndex: nat): (o: Output)
    ensures o.command.kind == ColorTemperature && o.command.payload == ColorTemperatureKelvin(level)
    ensures (o.command.driver, o.command.strip) == Target(address, ledIndex)
    ensures o.feedback == ShowColorTemperature(level)
  {
    var (driver, strip) := Target(address, ledIndex);
    Output(Command(ColorTemperature, driver, strip, ColorTemperatureKelvin(level)), ShowColorTemperature(level))
  }

  /** `std::clamp`. */
  function Clamp(x: int, lo: int, hi: int): (r: int)
    requires lo <= hi
    ensures lo <= r <= hi
    ensures lo <= x <= hi ==> r == x
    ensures x < lo ==> r == lo
    ensures x > hi ==> r == hi
  {
    if x < lo then lo else if x > hi then hi else x
  }

  /** `updateBrightness`: the level moves by `delta`, clamped to [0, 12], and is published. */
  function UpdateBrightness(p: Panel, delta: int, ledIndex: nat): (r: (Panel, Output))
    requires Valid(p) && ledIndex < NumberOfLedStrips
    ensures Valid(r.0) && r.0.(brightnessLevels := p.brightnessLevels) == p
    ensures forall j :: 0 <= j < NumberOfLedStrips && j != ledIndex ==> r.0.brightnessLevels[j] == p.brightnessLevels[j]
    ensures r.0.brightnessLevels[ledIndex] <= MaximumLevel
    ensures 0 <= p.brightnessLevels[ledIndex] + delta <= MaximumLevel ==>
              r.0.brightnessLevels[ledIndex] == p.brightnessLevels[ledIndex] + delta
    ensures p.brightnessLevels[ledIndex] + delta < 0 ==> r.0.brightnessLevels[ledIndex] == 0
    ensures p.brightnessLevels[ledIndex] + delta > MaximumLevel ==> r.0.brightnessLevels[ledIndex] == MaximumLevel
    ensures r.1 == PublishBrightness(p.address, r.0.brightnessLevels[ledIndex], ledIndex)
  {
    var level := Clamp(p.brightnessLevels[ledIndex] + delta, 0, MaximumLevel);
    var p' := p.(brightnessLevels := p.brightnessLevels[ledIndex := level]);
    (p', PublishBrightness(p.address, level, ledIndex))
  }

  /** `updateColorTemperature`: the level moves by `delta`, clamped to [1, 12], and is published. */
  function UpdateColorTemperature(p: Panel, delta: int, ledIndex: nat): (r: (Panel, Output))
    requires Valid(p) && ledIndex < NumberOfLedStrips
    ensures Valid(r.0) && r.0.(colorTemperatureLevels := p.colorTemperatureLevels) == p
    ensures forall j :: 0 <= j < NumberOfLedStrips && j != ledIndex ==>
              r.0.colorTemperatureLevels[j] == p.colorTemperatureLevels[j]
    ensures 1 <= r.0.colorTemperatureLevels[ledIndex] <= MaximumLevel
    ensures 1 <= p.colorTemperatureLevels[ledIndex] + delta <= MaximumLevel ==>
              r.0.colorTemperatureLevels[ledIndex] == p.colorTemperatureLevels[ledIndex] + delta
    ensures p.colorTemperatureLevels[ledIndex] + delta < 1 ==> r.0.colorTemperatureLevels[ledIndex] == 1
    ensures p.colorTemperatureLevels[ledIndex] + delta > MaximumLevel ==>
              r.0.colorTemperatureLevels[ledIndex] == MaximumLevel
    ensures r.1 == PublishColorTemperature(p.address, r.0.colorTemperatureLevels[ledIndex], ledIndex)
  {
    var level := Clamp(p.colorTemperatureLevels[ledIndex] + delta, 1, MaximumLevel);
    var p' := p.(colorTemperatureLevels := p.colorTemperatureLevels[ledIndex := level]);
    (p', PublishColorTemperature(p.address, level, ledIndex))
  }

  /** `togglePower`: the power flag flips, and the stored brightness level is published when the
      strip is now on, level 0 when it is now off. */
  function TogglePower(p: Panel, ledIndex: nat): (r: (Panel, Output))
    requires Valid(p) && ledIndex < NumberOfLedStrips
    ensures Valid(r.0) && r.0.(powerState := p.powerState) == p
    ensures r.0.powerState[ledIndex] == !p.powerState[ledIndex]
    ensures forall j :: 0 <= j < NumberOfLedStrips && j != ledIndex ==> r.0.powerState[j] == p.powerState[j]
    ensures r.1.command.kind == Brightness && (r.1.command.driver, r.1.command.strip) == Target(p.address, ledIndex)
    ensures r.1.command.payload
         == if r.0.powerState[ledIndex] then BrightnessPercentage(p.brightnessLevels[ledIndex]) else 0
  {
    var on := !p.powerState[ledIndex];
    (p.(powerState := p.powerState[ledIndex := on]),
     PublishBrightness(p.address, if on then p.brightnessLevels[ledIndex] else 0, ledIndex))
  }

  /** `resetBrightnessToDefault`. */
  function ResetBrightnessToDefault(p: Panel, ledIndex: nat): (r: (Panel, Output))
    requires Valid(p) && ledIndex < NumberOfLedStrips
    ensures Valid(r.0) && r.0.(brightnessLevels := p.brightnessLevels) == p
    ensures r.0.brightnessLevels[ledIndex] == DefaultBrightnessLevel
    ensures forall j :: 0 <= j < NumberOfLedStrips && j != ledIndex ==> r.0.brightnessLevels[j] == p.brightnessLevels[j]
    ensures r.1.command.kind == Brightness && (r.1.command.driver, r.1.command.strip) == Target(p.address, ledIndex)
    ensures r.1.command.payload == 72
  {
    (p.(brightnessLevels := p.brightnessLevels[ledIndex := DefaultBrightnessLevel]),
     PublishBrightness(p.address, DefaultBrightnessLevel, ledIndex))
  }

  /** `resetColorTemperatureToDefault`. */
  function ResetColorTemperatureToDefault(p: Panel, ledIndex: nat): (r: (Panel, Output))
    requires Valid(p) && ledIndex < NumberOfLedStrips
    ensures Valid(r.0) && r.0.(colorTemperatureLevels := p.colorTemperatureLevels) == p
    ensures r.0.colorTemperatureLevels[ledIndex] == DefaultColorTemperatureLevel
    ensures forall j :: 0 <= j < NumberOfLedStrips && j != ledIndex ==>
              r.0.colorTemperatureLevels[j] == p.colorTemperatureLevels[j]
    ensures r.1.command.kind == ColorTemperature && (r.1.command.driver, r.1.command.strip) == Target(p.address, ledIndex)
    ensures r.1.command.payload == 4200
  {
    (p.(colorTemperatureLevels := p.colorTemperatureLevels[ledIndex := DefaultColorTemperatureLevel]),
     PublishColorTemperature(p.address, DefaultColorTemperatureLevel, ledIndex))
  }

  // ------------------------------------------------------------------------------------------
  // Encoders and buttons

  /** The body of `handleEncoderDeltas` for one encoder with a non-zero delta: even encoders
      drive brightness and odd encoders colour temperature, of strip `encoderIndex / 2`. */
  function EncoderEffect(p: Panel, encoderIndex: nat, delta: int): (r: (Panel, Output))
    requires Valid(p) && encoderIndex < EncoderCount(p.address)
    ensures Valid(r.0) && r.0.address == p.address
    ensures r.1.command.kind == (if encoderIndex % 2 == 0 then Brightness else ColorTemperature)
    ensures (r.1.command.driver, r.1.command.strip) == Target(p.address, encoderIndex / 2)
  {
    if encoderIndex % 2 == 0 then UpdateBrightness(p, delta, encoderIndex / 2)
    else UpdateColorTemperature(p, delta, encoderIndex / 2)
  }

  /** The loop of `handleEncoderDeltas` from encoder `i` on: zero deltas are skipped, every other
      one applies its encoder's update. */
  function HandleEncodersFrom(p: Panel, deltas: seq<int>, i: nat): (r: (Panel, seq<Output>))
    requires Valid(p) && |deltas| == 4 && i <= EncoderCount(p.address)
    ensures Valid(r.0) && r.0.address == p.address
    ensures |r.1| <= EncoderCount(p.address) - i
    decreases EncoderCount(p.address) - i
  {
    if i == EncoderCount(p.address) then (p, [])
    else if deltas[i] == 0 then HandleEncodersFrom(p, deltas, i + 1)
    else
      var (p1, o) := EncoderEffect(p, i, deltas[i]);
      var (p2, os) := HandleEncodersFrom(p1, deltas, i + 1);
      (p2, [o] + os)
  }

  /** `handleEncoderDeltas` over the deltas of one sampling round (`encoderDeltas` has four
      entries; only the first `numberOfEncoders` are read). */
  function HandleEncoderDeltas(p: Panel, deltas: seq<int>): (r: (Panel, seq<Output>))
    requires Valid(p) && |deltas| == 4
    ensures Valid(r.0) && r.0.address == p.address
    ensures |r.1| == NonZeroCount(deltas, 0, EncoderCount(p.address))
    ensures r.1 == IndependentOutputs(p, deltas, 0)
  {
    EncoderOutputsIndependent(p, deltas, 0);
    HandleEncodersFrom(p, deltas, 0)
  }

  /** Number of non-zero deltas among `deltas[i..n]`. */
  function NonZeroCount(deltas: seq<int>, i: nat, n: nat): nat
    requires i <= n <= |deltas|
    decreases n - i
  {
    if i == n then 0 else (if deltas[i] != 0 then 1 else 0) + NonZeroCount(deltas, i + 1, n)
  }

  /** The reference output of a sampling round: for each encoder in index order with a non-zero
      delta, the output its update produces when applied to the panel as it was before the round. */
  function IndependentOutputs(p: Panel, deltas: seq<int>, i: nat): (os: seq<Output>)
    requires Valid(p) && |deltas| == 4 && i <= EncoderCount(p.address)
    ensures |os| == NonZeroCount(deltas, i, EncoderCount(p.address))
    decreases EncoderCount(p.address) - i
  {
    if i == EncoderCount(p.address) then []
    else (if deltas[i] == 0 then [] else [EncoderEffect(p, i, deltas[i]).1]) + IndependentOutputs(p, deltas, i + 1)
  }

  /** The level an encoder moves. */
  function Slot(p: Panel, encoderIndex: nat): byte
    requires Valid(p) && encoderIndex < 4
  {
    if encoderIndex % 2 == 0 then p.brightnessLevels[encoderIndex / 2]
    else p.colorTemperatureLevels[encoderIndex / 2]
  }

  /** An encoder's output depends only on the panel address and that encoder's own level. */
  lemma EncoderEffectLocal(p: Panel, q: Panel, j: nat, delta: int)
    requires Valid(p) && Valid(q) && p.address == q.address && j < EncoderCount(p.address)
    requires Slot(p, j) == Slot(q, j)
    ensures EncoderEffect(p, j, delta).1 == EncoderEffect(q, j, delta).1
  {
  }

  /** An encoder's update leaves every other encoder's level as it was. */
  lemma EncoderEffectFrame(p: Panel, i: nat, delta: int, j: nat)
    requires Valid(p) && i < EncoderCount(p.address) && j < EncoderCount(p.address) && i != j
    ensures Slot(EncoderEffect(p, i, delta).0, j) == Slot(p, j)
  {
  }

  /** The reference outputs from encoder `i` on agree for two panels whose levels agree on the
      encoders from `i` on. */
  lemma {:induction false} IndependentOutputsLocal(p: Panel, q: Panel, deltas: seq<int>, i: nat)
    requires Valid(p) && Valid(q) && p.address == q.address && |deltas| == 4 && i <= EncoderCount(p.address)
    requires forall j :: i <= j < EncoderCount(p.address) ==> Slot(p, j) == Slot(q, j)
    ensures IndependentOutputs(p, deltas, i) == IndependentOutputs(q, deltas, i)
    decreases EncoderCount(p.address) - i
  {
    if i < EncoderCount(p.address) {
      if deltas[i] != 0 {
        EncoderEffectLocal(p, q, i, deltas[i]);
      }
      IndependentOutputsLocal(p, q, deltas, i + 1);
    }
  }

  /** The encoders of one round do not interfere: processing them in sequence emits, in encoder
      order, exactly the outputs each one would produce on its own. */
  lemma {:induction false} EncoderOutputsIndependent(p: Panel, deltas: seq<int>, i: nat)
    requires Valid(p) && |deltas| == 4 && i <= EncoderCount(p.address)
    ensures HandleEncodersFrom(p, deltas, i).1 == IndependentOutputs(p, deltas, i)
    decreases EncoderCount(p.address) - i
  {
    if i < EncoderCount(p.address) {
      if deltas[i] == 0 {
        EncoderOutputsIndependent(p, deltas, i + 1);
      } else {
        var p1 := EncoderEffect(p, i, deltas[i]).0;
        EncoderOutputsIndependent(p1, deltas, i + 1);
        forall j | i + 1 <= j < EncoderCount(p.address)
          ensures Slot(p1, j) == Slot(p, j)
        {
          EncoderEffectFrame(p, i, deltas[i], j);
        }
        IndependentOutputsLocal(p1, p, deltas, i + 1);
      }
    }
  }

  /** The lowest level an encoder's slot can hold: 0 for brightness, 1 for colour temperature. */
  function SlotMinimum(encoderIndex: nat): nat
  {
    if encoderIndex % 2 == 0 then 0 else 1
  }

  /** A turn that stays within the level range moves the encoder's level by exactly `delta` and
      is undone by the opposite turn; a turn past either end stops at that end. */
  lemma EncoderMoveUndone(p: Panel, e: nat, delta: int)
    requires LevelsInRange(p) && e < EncoderCount(p.address)
    ensures var p1 := EncoderEffect(p, e, delta).0;
      && (SlotMinimum(e) <= Slot(p, e) + delta <= MaximumLevel ==>
            Slot(p1, e) == Slot(p, e) + delta && EncoderEffect(p1, e, -delta).0 == p)
      && (Slot(p, e) + delta >= MaximumLevel ==> Slot(p1, e) == MaximumLevel)
      && (Slot(p, e) + delta <= SlotMinimum(e) ==> Slot(p1, e) == SlotMinimum(e))
  {
    var l := e / 2;
    assert p.brightnessLevels[l := p.brightnessLevels[l]] == p.brightnessLevels;
    assert p.colorTemperatureLevels[l := p.colorTemperatureLevels[l]] == p.colorTemperatureLevels;
  }

  /** The debounced button events. */
  datatype ButtonAction = ShortPress | LongPress

  /** `commonButtonCallback`: a short press toggles the power of strip `encoderIndex / 2`; a long
      press resets brightness (even encoders) or colour temperature (odd encoders) to default. */
  function ButtonCallback(p: Panel, action: ButtonAction, encoderIndex: nat): (r: (Panel, Output))
    requires Valid(p) && encoderIndex < EncoderCount(p.address)
    ensures Valid(r.0) && r.0.address == p.address
    ensures (r.1.command.driver, r.1.command.strip) == Target(p.address, encoderIndex / 2)
    ensures action == ShortPress ==>
      && r.0 == p.(powerState := p.powerState[encoderIndex / 2 := !p.powerState[encoderIndex / 2]])
      && r.1.command.kind == Brightness
      && r.1.command.payload
         == (if r.0.powerState[encoderIndex / 2] then BrightnessPercentage(p.brightnessLevels[encoderIndex / 2]) else 0)
    ensures action == LongPress && encoderIndex % 2 == 0 ==>
      && r.0 == p.(brightnessLevels := p.brightnessLevels[encoderIndex / 2 := DefaultBrightnessLevel])
      && r.1.command.kind == Brightness && r.1.command.payload == 72
    ensures action == LongPress && encoderIndex % 2 == 1 ==>
      && r.0 == p.(colorTemperatureLevels := p.colorTemperatureLevels[encoderIndex / 2 := DefaultColorTemperatureLevel])
      && r.1.command.kind == ColorTemperature && r.1.command.payload == 4200
  {
    var ledIndex := encoderIndex / 2;
    match action
    case ShortPress => TogglePower(p, ledIndex)
    case LongPress =>
      if encoderIndex % 2 == 0 then ResetBrightnessToDefault(p, ledIndex)
      else ResetColorTemperatureToDefault(p, ledIndex)
  }

  /** Two short presses on buttons of the same strip restore the panel; the two published
      brightness values are the stored level and 0, one each. */
  lemma ToggleTwiceRestores(p: Panel, e1: nat, e2: nat)
    requires Valid(p) && e1 < EncoderCount(p.address) && e2 < EncoderCount(p.address) && e1 / 2 == e2 / 2
    ensures var (p1, o1) := ButtonCallback(p, ShortPress, e1);
      var (p2, o2) := ButtonCallback(p1, ShortPress, e2);
      && p2 == p
      && p1.powerState[e1 / 2] == !p.powerState[e1 / 2]
      && {o1.command.payload, o2.command.payload}
         == {BrightnessPercentage(p.brightnessLevels[e1 / 2]), BrightnessPercentage(0)}
  {
    var l := e1 / 2;
    assert p.powerState[l := !p.powerState[l]][l := p.powerState[l]] == p.powerState;
  }

  /** A long press resets exactly one level to its default and changes nothing else. */
  lemma LongPressResets(p: Panel, e: nat)
    requires Valid(p) && e < EncoderCount(p.address)
    ensures var (p1, o) := ButtonCallback(p, LongPress, e);
      && (e % 2 == 0 ==> p1 == p.(brightnessLevels := p.brightnessLevels[e / 2 := 9])
                         && o.command.payload == 72)
      && (e % 2 == 1 ==> p1 == p.(colorTemperatureLevels := p.colorTemperatureLevels[e / 2 := 6])
                         && o.command.payload == 4200)
  {
  }

  /** The panel's inputs. */
  datatype Event = EncoderRound(deltas: seq<int>) | Button(action: ButtonAction, encoderIndex: nat)

  predicate EventFits(p: Panel, e: Event)
  {
    match e
    case EncoderRound(deltas) => |deltas| == 4
    case Button(_, encoderIndex) => encoderIndex < EncoderCount(p.address)
  }

  function HandleEvent(p: Panel, e: Event): (r: (Panel, seq<Output>))
    requires Valid(p) && EventFits(p, e)
    ensures Valid(r.0) && r.0.address == p.address
    ensures e.Button? ==> |r.1| == 1
  {
    match e
    case EncoderRound(deltas) => HandleEncoderDeltas(p, deltas)
    case Button(action, encoderIndex) =>
      var (p1, o) := ButtonCallback(p, action, encoderIndex);
      (p1, [o])
  }

  /** Every event keeps the levels in range, and every command it emits carries a brightness of
      at most 100 % or a colour temperature within 2700..6000 K, for a driver of the panel's
      target. */
  lemma EventKeepsRanges(p: Panel, e: Event)
    requires LevelsInRange(p) && EventFits(p, e)
    ensures LevelsInRange(HandleEvent(p, e).0)
    ensures forall o :: o in HandleEvent(p, e).1 ==> ValidCommand(p.address, o)
  {
    match e
    case EncoderRound(deltas) => EncoderRoundKeepsRanges(p, deltas, 0);
    case Button(action, encoderIndex) =>
  }

  /** A command the panel can emit: Brightness with a percentage on the 8 % grid up to 96, or
      ColorTemperature with a kelvin value on the 300 K grid in 2700..6000, sent to one of the
      targets of the panel's address. */
  predicate ValidCommand(address: byte, o: Output)
  {
    var c := o.command;
    && (c.kind == Brightness ==> c.payload <= 96 && c.payload % StepPerBrightnessLevel == 0)
    && (c.kind == ColorTemperature ==> 2700 <= c.payload <= 6000 && c.payload % StepPerColorTemperatureLevel == 0)
    && (c.kind == Brightness || c.kind == ColorTemperature)
    && exists l :: 0 <= l < NumberOfLedStrips && (c.driver, c.strip) == Target(address, l)
  }

  lemma {:induction false} EncoderRoundKeepsRanges(p: Panel, deltas: seq<int>, i: nat)
    requires LevelsInRange(p) && |deltas| == 4 && i <= EncoderCount(p.address)
    ensures LevelsInRange(HandleEncodersFrom(p, deltas, i).0)
    ensures forall o :: o in HandleEncodersFrom(p, deltas, i).1 ==> ValidCommand(p.address, o)
    decreases EncoderCount(p.address) - i
  {
    if i < EncoderCount(p.address) {
      if deltas[i] == 0 {
        EncoderRoundKeepsRanges(p, deltas, i + 1);
      } else {
        var (p1, o) := EncoderEffect(p, i, deltas[i]);
        EncoderEffectKeepsRanges(p, i, deltas[i]);
        EncoderRoundKeepsRanges(p1, deltas, i + 1);
        var os := HandleEncodersFrom(p1, deltas, i + 1).1;
        assert HandleEncodersFrom(p, deltas, i).1 == [o] + os;
        assert forall x :: x in [o] + os ==> x == o || x in os;
      }
    }
  }

  /** One encoder's update keeps the levels in range and emits a command the panel can emit. */
  lemma EncoderEffectKeepsRanges(p: Panel, i: nat, delta: int)
    requires LevelsInRange(p) && i < EncoderCount(p.address)
    ensures LevelsInRange(EncoderEffect(p, i, delta).0)
    ensures ValidCommand(p.address, EncoderEffect(p, i, delta).1)
  {
  }
}

=== FILE: stream.dfy ===
/** The byte stream buffers that carry CAN frames between interrupt and task context,
    modelled as a FIFO of tokens. A frame header is one atomic token (the HAL header record is
    never split), payload bytes are one token each. */
module Stream {
  import opened MachineInt
  import opened Wrappers

  /** The fields of a HAL frame header the firmware reads: identifier and payload byte count. */
  datatype Header = Header(identifier: nat, dataLength: nat)

  datatype Token = HeaderToken(header: Header) | DataByte(value: byte)

  type Queue = seq<Token>

  /** Payload bytes as stream tokens. */
  function DataTokens(bytes: seq<byte>): (ts: Queue)
    ensures |ts| == |bytes|
    ensures forall i :: 0 <= i < |bytes| ==> ts[i] == DataByte(bytes[i])
  {
    seq(|bytes|, i requires 0 <= i < |bytes| => DataByte(bytes[i]))
  }

  lemma DataTokensAppend(a: seq<byte>, b: seq<byte>)
    ensures DataTokens(a + b) == DataTokens(a) + DataTokens(b)
  {
  }

  /** Number of bytes a token sequence occupies in the byte stream, given the header size. */
  function ByteCount(q: Queue, headerSize: nat): (n: nat)
    ensures n >= |q| - CountHeaders(q) + headerSize * CountHeaders(q)
    ensures n <= |q| - CountHeaders(q) + headerSize * CountHeaders(q)
  {
    if q == [] then 0
    else (if q[0].HeaderToken? then headerSize else 1) + ByteCount(q[1..], headerSize)
  }

  function CountHeaders(q: Queue): (c: nat)
    ensures c <= |q|
  {
    if q == [] then 0 else (if q[0].HeaderToken? then 1 else 0) + CountHeaders(q[1..])
  }

  lemma {:induction false} CountHeadersOfData(bytes: seq<byte>)
    ensures CountHeaders(DataTokens(bytes)) == 0
    decreases |bytes|
  {
    if bytes != [] {
      assert DataTokens(bytes)[1..] == DataTokens(bytes[1..]);
      CountHeadersOfData(bytes[1..]);
    }
  }

  /** The payload bytes of a token sequence that holds no header: the inverse of `DataTokens`. */
  function DataBytesOf(q: Queue): (r: Option<seq<byte>>)
    ensures r.Some? <==> CountHeaders(q) == 0
    ensures r.Some? ==> DataTokens(r.value) == q
  {
    if q == [] then Some([])
    else if q[0].HeaderToken? then None
    else
      match DataBytesOf(q[1..])
      case None => None
      case Some(rest) =>
        DataTokensAppend([q[0].value], rest);
        assert q == [q[0]] + q[1..];
        Some([q[0].value] + rest)
  }

  lemma DataTokensInjective(a: seq<byte>, b: seq<byte>)
    requires DataTokens(a) == DataTokens(b)
    ensures a == b
  {
    assert |a| == |DataTokens(a)| == |b|;
    forall i | 0 <= i < |a|
      ensures a[i] == b[i]
    {
      assert DataTokens(a)[i] == DataByte(a[i]);
      assert DataTokens(b)[i] == DataByte(b[i]);
    }
  }

  lemma {:induction false} DataBytesOfDataTokens(bytes: seq<byte>)
    ensures DataBytesOf(DataTokens(bytes)) == Some(bytes)
  {
    CountHeadersOfData(bytes);
    var r := DataBytesOf(DataTokens(bytes));
    DataTokensInjective(r.value, bytes);
  }

  /** Outcome of a header-sized receive: either nothing arrived or one header was read. */
  datatype HeaderRead = NothingRead | HeaderReceived(header: Header)

  /** A header-sized receive. An empty queue gives a 0-byte read; a queue whose front token is
      a payload byte (a desynchronised stream) is also reported as a failed read. */
  function ReceiveHeader(q: Queue): (r: (HeaderRead, Queue))
    ensures r.0.HeaderReceived? <==> (q != [] && q[0].HeaderToken?)
    ensures r.0.HeaderReceived? ==> q == [HeaderToken(r.0.header)] + r.1
    ensures r.0.NothingRead? ==> r.1 == q
  {
    if q != [] && q[0].HeaderToken? then (HeaderReceived(q[0].header), q[1..]) else (NothingRead, q)
  }

  /** A receive of up to `n` payload bytes: it returns the payload bytes at the front of the
      queue, stopping early ("coming up short") when the queue runs dry or the next frame's
      header is reached. */
  function ReceivePayload(q: Queue, n: nat): (r: (seq<byte>, Queue))
    ensures |r.0| <= n
    ensures DataTokens(r.0) + r.1 == q
    ensures |r.0| < n ==> r.1 == [] || r.1[0].HeaderToken?
    decreases n
  {
    if n == 0 || q == [] || q[0].HeaderToken? then ([], q)
    else
      var rest := ReceivePayload(q[1..], n - 1);
      DataTokensAppend([q[0].value], rest.0);
      ([q[0].value] + rest.0, rest.1)
  }

  /** A payload read from a queue that starts with at least `n` payload bytes returns exactly
      those bytes. */
  lemma {:induction false} ReceivePayloadExact(bytes: seq<byte>, rest: Queue)
    requires rest == [] || rest[0].HeaderToken?
    ensures ReceivePayload(DataTokens(bytes) + rest, |bytes|) == (bytes, rest)
    decreases |bytes|
  {
    var q := DataTokens(bytes) + rest;
    if bytes != [] {
      assert q[0] == DataByte(bytes[0]);
      assert q[1..] == DataTokens(bytes[1..]) + rest;
      ReceivePayloadExact(bytes[1..], rest);
      assert ReceivePayload(q, |bytes|).0 == [bytes[0]] + bytes[1..];
      assert [bytes[0]] + bytes[1..] == bytes;
    } else {
      assert q == rest;
    }
  }
}
